=== FILE: README.md ===
# run-drive: the sync engine and the file server gate, in Dafny

run-drive mirrors one Google Drive folder into the local directory
`/tmp/agents-state` and serves that directory read-only over HTTP. This
project models the two parts that make decisions:

- **The sync engine** (`syncer.go`). One cycle (`performSync`) finds the
  folder, then walks the remote tree (`syncFolderRecursively`):
  - each child is sorted into folder, Google Workspace document or binary;
  - folders and binaries are marked in the set of paths that exist remotely;
  - folders are created and descended into;
  - each binary that is newer than the watermark is handed to
    `downloadFile`, which skips it when the local SHA-256 matches the
    remote checksum.

  The cycle then prunes (`pruneLocalFiles`). It selects every walked local
  path missing from the remote set and removes the selection longest path
  first, carrying on past failures. The sync loop adopts a cycle's start
  time as the next watermark only when the cycle reports no error.
- **The HTTP gate** (`main.go`). `fileHandler` strips the leading `/`,
  joins the rest onto the download root with lexical cleaning, and forbids
  the result unless it starts with the root string. It then answers 404,
  500, a directory listing (`listDirectory`) or the file.

Modules:

- `Paths`: local paths as sequences of segments below the root. `[]` is
  the root, and `Render` gives the path string.
- `Remote`: the remote tree as an inductive datatype. Every folder carries
  the result of its paged listing: the entries that arrived, and whether
  paging finished without error.
- `Mirror`: the traversal. It computes the remote-path set and the ordered
  `downloadFile` calls. A separate existential description of which entries
  get visited, and from which directory, serves as its reference.
- `Download`: the skip-or-fetch decision and its effect on the local file.
- `Prune`: selection, the longest-first order, and the effect of the
  removals on the local tree.
- `Cycle`: `performSync` and the watermark threaded through the loop.
- `Serve`: `filepath.Join` as lexical cleaning, the containment test,
  and the response.

Some inputs come from outside the program. Each one is a parameter:

- the clock reading at the start of a cycle;
- the folder lookup;
- the listing of every folder;
- the outcome of `MkdirAll` for each path;
- RFC 3339 parsing, as a partial function to nanoseconds since Go's zero
  time;
- SHA-256, as an opaque function from content to hex string;
- the local file `downloadFile` finds;
- the outcome of the download transfer;
- the walk of the local tree;
- which `os.Remove` calls fail;
- the filesystem the server sees.

Remote names are assumed to be single segments: non-empty, with no `/`, and
neither `.` nor `..`. Under that assumption `filepath.Join(localPath, name)`
appends one segment. `Paths.RenderInjective` shows that segment paths then
key the remote set exactly as the path strings do.

## Model

| member | source | states |
|---|---|---|
| Paths.RenderInjective | syncer.go:97 | two segment paths with the same path string are equal, so the remote set over segments matches the string-keyed map |
| Paths.Utf8Width | syncer.go:149 | Go's `len` counts UTF-8 bytes: each character takes one to four |
| Paths.DescendantRendersLonger | syncer.go:147-150 | a strict descendant's path string has strictly more UTF-8 bytes than its ancestor's |
| Paths.UnmarkedBelowUnmarked | syncer.go:138-140 | in an ancestor-closed set, every path below an unmarked path is unmarked |
| Paths.AncestorsIncluded | syncer.go:70-71 | in an ancestor-closed set, every ancestor of a member is a member |
| Remote.KindOf | syncer.go:99-113 | folder exactly for the folder type; workspace exactly for any other `application/vnd.google-apps.` type; binary otherwise |
| Remote.FolderTestComesFirst | syncer.go:99-108 | the folder type carries the workspace prefix, and the folder test decides it first |
| Mirror.SyncFolder | syncer.go:95-127 | a traversal only adds to the remote set and only appends downloads |
| Mirror.Visit | syncer.go:97-123 | one entry and its subtree only add to the remote set and only append downloads; Mirror.VisitExactly states exactly what they add |
| Mirror.Wanted | syncer.go:116-121 | a binary is handed to `downloadFile` only when its modified time parses |
| Mirror.LaterWatermarkWantsLess | syncer.go:120 | a later watermark never wants a binary an earlier one did not; the zero watermark wants every binary whose time parses |
| Mirror.SyncFolderExactly | syncer.go:96-124 | the marks are exactly the paths of the visited non-workspace entries; the downloads are exactly the visited binaries whose time parses and is zero-watermark or strictly newer |
| Mirror.VisitExactly | syncer.go:97-123 | the same characterization for one entry and its subtree |
| Mirror.SyncFolderKeepsAncestorClosed | syncer.go:97-115 | marking happens only under a marked directory, so an ancestor-closed set stays ancestor-closed |
| Mirror.VisitedOnlyBelowCreatedDirs | syncer.go:100-105 | an entry is visited only below the starting directory and only if every directory in between was created |
| Mirror.SyncFolderStaysBelow | syncer.go:97 | every mark is strictly below the listing's directory, and every download is at or below it |
| Mirror.VisitedWellNamed | syncer.go:97-105 | when every remote name is a single segment, entries are visited only in directories made of single segments |
| Mirror.SyncFolderMarksSegments | syncer.go:97-115 | when every remote name is a single segment, every recorded local path is made of single segments, so Paths.RenderInjective applies to the remote set |
| Mirror.SyncFolderAppend | syncer.go:95-96 | syncing two runs of entries equals syncing the first, then the second, from where it left off |
| Mirror.SyncFolderFrom | syncer.go:89 | the result from any starting plan is that plan combined with the result from the empty plan |
| Mirror.WorkspaceEntryIgnored | syncer.go:108-112 | a workspace document anywhere in a listing changes neither the marks nor the downloads |
| Mirror.BranchFailureIsolated | syncer.go:100-107 | replacing one folder's listing (e.g. by a failed one) changes marks only inside that folder's subtree and downloads only at or below it |
| Mirror.EveryChildMarked | syncer.go:99-115 | every folder or binary child is marked, even when its directory cannot be created or its time does not parse |
| Mirror.DownloadsAreMarked | syncer.go:115-123 | every file handed to `downloadFile` has its own path in the remote set |
| Download.Decide | syncer.go:182-192 | the download is skipped exactly when the local file exists, hashes, and matches the remote checksum |
| Download.DownloadFile | syncer.go:194-210 | a skip or a failed request or create leaves the local file unchanged; a failed copy leaves what was written; a complete copy leaves the body |
| Download.DownloadThenSkip | syncer.go:182-188 | after a complete download of content matching the checksum, the next decision is a skip |
| Prune.SelectStale | syncer.go:134-142 | each walked path absent from the remote set is selected as often as walked; nothing else is selected |
| Prune.Insert | syncer.go:148-150 | inserting into a sequence ordered by non-increasing byte length keeps it ordered and adds exactly one element |
| Prune.SortLongestFirst | syncer.go:147-150 | the sorted selection is a permutation of the selection, in non-increasing byte length of the path strings |
| Prune.PruneOrder | syncer.go:134-150 | the removal order holds each walked path absent from the remote set as often as walked, and nothing else, in non-increasing byte length |
| Prune.PruneLocalFiles | syncer.go:132-158 | an error exactly when the walk fails; otherwise the removal order holds exactly the walked paths absent from the remote set, most UTF-8 bytes first |
| Prune.PruneSelectsExactly | syncer.go:138-140 | a path is in the removal order exactly when it was walked and is not remote |
| Prune.RootNeverPruned | syncer.go:138 | with the root in the remote set, the root is never selected |
| Prune.ChildBeforeParent | syncer.go:147-150 | in the removal order, a strict descendant comes before its ancestor |
| Prune.RemoveOne | syncer.go:154 | one `os.Remove` removes at most that one path |
| Prune.RemoveAll | syncer.go:152-157 | the removals never add a path |
| Prune.PruneOutcome | syncer.go:152-157 | longest-first removal of a selection closed below removes exactly the selected paths with no failing path at or below them |
| Prune.PruneLeavesOnlyRemote | syncer.go:132-158 | with an ancestor-closed remote set, a full walk and no failures, removal in any longest-first order of the selection leaves the local tree as exactly its paths that exist remotely |
| Cycle.PerformSync | syncer.go:61-86 | every return reports the entry time; each error kind is stated with its exact cause; no error exactly when the lookup, the root listing and the walk succeed; pruning only on success |
| Cycle.CycleMarksAncestorClosed | syncer.go:70-74 | a cycle's remote set contains the root and is ancestor-closed |
| Cycle.CycleNeverPrunesRoot | syncer.go:70-80 | no cycle selects the download root for removal |
| Cycle.WorkspaceOnlyPathIsPruned | syncer.go:108-112 | a local path that only workspace documents map to is not remote, so a successful cycle selects it for removal |
| Cycle.CycleLeavesOnlyRemote | syncer.go:74-85 | after a successful cycle with a full walk and no removal errors, removal in any longest-first order of the cycle's selection leaves the local tree holding exactly its remote paths |
| Cycle.CycleOrderLeavesOnlyRemote | syncer.go:74-85 | the same outcome for the cycle's own removal order |
| Cycle.InitialWatermark | syncer.go:36-39 | zero unless `secondsAgo > 0`, and then strictly before now |
| Cycle.InitialWatermarkWindow | syncer.go:36-39 | the first cycle downloads a binary exactly when its time lies within the last `secondsAgo` seconds, or parses at all when there is no positive `secondsAgo` |
| Cycle.NextWatermark | syncer.go:48-54 | the loop adopts the cycle's time exactly when there was no error |
| Cycle.RunCycle | syncer.go:48 | a cycle run by the loop reports its own start time, and no error exactly when lookup, root listing and walk succeed |
| Cycle.CycleFetchesOnlyWanted | syncer.go:116-121 | every binary a cycle downloads passes the filter of the watermark the loop handed it |
| Cycle.SyncLoop | syncer.go:41-57 | the watermark is the initial one or the start time of some successful cycle |
| Cycle.SyncLoopAppend | syncer.go:41-57 | running two runs of cycles equals running the second from the watermark the first leaves |
| Cycle.FailingCyclesKeepWatermark | syncer.go:48-51 | failing cycles leave the watermark unchanged |
| Cycle.WatermarkIsLastSuccess | syncer.go:48-54 | the watermark after any run is the start time of the last successful cycle |
| Serve.TrimSlash | main.go:61 | exactly one leading `/` is removed, if there is one |
| Serve.SplitRoundTrip | main.go:62 | splitting on `/` gives slash-free pieces that join back with `/` into the string |
| Serve.GlueRoundTrip | main.go:62 | slash-free pieces joined with `/` split back into the same pieces |
| Serve.SplitJoin | main.go:62 | splitting a join of two strings on `/` gives the pieces of each |
| Serve.NormalizeProper | main.go:62 | cleaning leaves only segments that are non-empty, not `.` or `..`, and slash-free |
| Serve.CleanIdempotent | main.go:62 | `filepath.Clean` of a rooted path is rooted, and cleaning it again changes nothing |
| Serve.JoinCleanDir | main.go:62 | `filepath.Join` onto a directory equals joining onto that directory cleaned |
| Serve.ResolveIsClean | main.go:61-62 | the handler's `safePath` is rooted and already clean |
| Serve.NormalizeWithoutDotDot | main.go:62 | without `..`, cleaning appends the non-empty, non-`.` segments to the stack |
| Serve.ResolveSplits | main.go:62 | joining onto the root cleans the request's segments starting from the root's segments |
| Serve.EmptyRequestIsRoot | main.go:61-62 | a request that is empty after the leading `/` resolves to the root |
| Serve.PlainRequestResolves | main.go:61-62 | a request with no `..` resolves to the root followed by its kept segments |
| Serve.PlainRequestStaysInside | main.go:61-69 | a request with no `..` resolves inside the root and is not forbidden |
| Serve.InsideNotForbidden | main.go:64-69 | a request that resolves inside the root is not forbidden |
| Serve.EntryNames | main.go:102-110 | one name per entry, in read order, with `/` appended exactly for directories |
| Serve.ListDirectory | main.go:94-110 | a read error gives 500 and no listing; otherwise the listing of the entry names |
| Serve.ListingRoundTrip | main.go:102-110 | a listing determines its entries: stripping the trailing `/` gives back each name and whether it is a directory |
| Serve.FileHandler | main.go:59-91 | 403 exactly when the cleaned path does not start with the root string; any file served is the cleaned path |
| Serve.Admitted | main.go:71-90 | after the check: 404 exactly when nothing is there; 500 on a stat error; a directory is listed; anything that is not a directory goes to `http.ServeFile`, which answers 400 for a request path with a `..` element and otherwise serves it; never 403 |
| Serve.SplitSlashesRefines | main.go:90 | every `..` piece of the request split at `/`, other than a first piece holding a backslash, is also a `..` element in the sense of `http.ServeFile` |
| Serve.NoDotDotElement | main.go:61-90 | a request path that `http.ServeFile` accepts has no `..` segment after the leading `/` |
| Serve.NoFileEscapes | main.go:59-91 | any file the handler sends lies inside the root |
| Serve.ForbiddenBeforeFilesystem | main.go:64-72 | whether a request is forbidden does not depend on the filesystem |
| Serve.RootIsListed | main.go:61-86 | `/` resolves to the root itself, which is listed as a directory |
| Serve.TraversalForbidden | main.go:61-69 | `/../..` cleans to `/` and is forbidden |
| Serve.SiblingResolves | main.go:62 | `/../n` cleans to `/tmp/n` |
| Serve.SiblingOutside | main.go:66 | `/tmp/n` for a sibling name `n` starts with the root string but is neither the root nor below it |
| Serve.PrefixCheckAdmitsSibling | main.go:61-86 | as written, a request for `/../n` passes the check, and a directory at `/tmp/n`, outside the root, is listed |
| Serve.SiblingFileRefused | main.go:61-90 | a file at such a sibling is not sent: `http.ServeFile` answers 400 because the request path has a `..` element |
| Serve.AgentsState2IsSibling | main.go:66 | `agents-state2` is such a sibling name |
| Serve.ContainedFileHandler | main.go:64-69 | with a segment-wise test: not forbidden exactly when the path resolves inside the root, and any file served lies inside |
| Serve.ContainedHandlerIsSafe | main.go:64-69 | the segment-wise handler equals the original whenever the path resolves inside the root, and forbids everything the original forbids |
| Serve.ContainedHandlerRejectsSibling | main.go:64-69 | the segment-wise test forbids every request for a sibling of the root |

## Left out

- The sleep, the `ctx.Done()` polling and the Drive client construction of `startSyncLoop` are concurrency and setup. Only the watermark rule is modelled, as a fold over a finite sequence of cycles.
- The Drive calls are not modelled as calls: `getFolderID`, the paged `Files.List` and `Files.Get().Download`. Their outcomes are inputs, as is the listing of every folder.
- SHA-256 and RFC 3339 parsing are opaque parameters. `calculateLocalSHA256` is one outcome of the local probe: it hashes, or it fails.
- `MkdirAll`, `os.Stat`, `os.Create`, `io.Copy`, `filepath.Walk`, `os.Remove` and `os.ReadDir` are outcomes that succeed or fail, not real I/O. Each oracle gives the same answer for the same path within one cycle.
- Errors from closing the response body or the local file in `downloadFile` are not modelled. Go ignores them (deferred `Close`).
- Prune.SortLongestFirst: Go's `sort.Slice` is not stable, so its order among paths of equal length is unspecified. The model fixes one such order. Prune.ChildBeforeParent, Prune.PruneOutcome, Prune.PruneLeavesOnlyRemote and Cycle.CycleLeavesOnlyRemote take any longest-first order, so they hold for the order Go produces; Prune.PruneLocalFiles, Prune.PruneSelectsExactly and Prune.RootNeverPruned are stated for the model's order, and depend on its contents only.
- Prune.PruneOutcome: assumes the selection is closed below, i.e. the walk saw every path under a selected directory. Prune.PruneLeavesOnlyRemote derives that from an ancestor-closed remote set and a full walk.
- The remote folder hierarchy is a finite tree: `Entry` and `Listing` are inductive. `syncFolderRecursively` has no cycle check, so a folder that contained itself would recurse without end; Drive folders form no such cycle.
- Remote names that are not single segments are not modelled, because of the assumption above: names with `/`, `.`, `..` or the empty name, which `filepath.Join` would clean.
- The `DriveAPI` interface, the checksum cache and the mock API of the tests are not modelled. They belong to a different `performSync` signature from the one the engine shows.
- Cycle.InitialWatermark: does not model int64 overflow in `time.Duration(secondsAgo) * time.Second` for very large `secondsAgo`.
- Serve.CleanRooted: models `filepath.Clean` for rooted paths only. The handler always joins onto the rooted download directory.
- Paths.ByteLen: counts the UTF-8 encoding of Unicode characters. A Go string that is not valid UTF-8 is not modelled.
- Serve.Split: works on characters, while Go splits bytes. Since `/` is one byte in UTF-8, both split at the same places.
- Path cleaning and redirects by `http.ServeMux` before the handler runs are not modelled. The model takes the handler's `r.URL.Path` as given; which paths the mux lets through depends on the Go version.
- `http.ServeFile` internals, response headers, and JSON encoding are library code. Of `http.ServeFile` only its refusal (400) of a request path with a `..` element is modelled; its redirects of `/index.html` and of directory paths, range requests and content types are not. In Go an empty listing encodes as `null` because the slice is nil; the model returns the empty sequence.
- Flag parsing, signal handling and `http.ListenAndServe` are process plumbing.

## Findings

| source | as written | input that shows it | evidently intended | confidence | as-written member | corrected member |
|---|---|---|---|---|---|---|
| main.go:64-69 | the containment test is `strings.HasPrefix(safePath, downloadDir)`, a string prefix | request path `/../agents-state2` (sent as `/%2e%2e/agents-state2`) cleans to `/tmp/agents-state2` and passes the test though it lies outside the root; a directory there is listed (a file there is refused with 400 by `http.ServeFile`, which rejects `..` in the request path) | admit only the root itself or paths below `downloadDir + "/"` | medium, depending on the Go version: before Go 1.22 `http.ServeMux` cleans and redirects every request path with a `..` element, so only a direct call of the handler (as its tests make) reaches it; from Go 1.22 the mux cleans the escaped path, so `GET /%2e%2e/agents-state2` is not redirected and arrives with the decoded path `/../agents-state2`, read from the net/http source rather than observed; not executed | Serve.PrefixCheckAdmitsSibling | Serve.ContainedFileHandler |

=== FILE: cycle.dfy ===
/**
  One sync cycle (`performSync`) and the watermark the sync loop threads from
  one cycle to the next.
 */
module Cycle {
  import opened Wrappers
  import opened Paths
  import opened Remote
  import opened Mirror
  import opened Prune

  const NanosPerSecond: int := 1_000_000_000

  /** `getFolderID`: the query fails, matches no folder, or finds one; for a
      found folder, the listing of its id. */
  datatype FolderLookup = LookupFailed | NoSuchFolder | FoundFolder(listing: Listing)

  datatype SyncError = FindFolderError | RecursiveSyncError | PruneError

  /** What a cycle returns (`time`, `err`) together with what it did: the
      remote-path set and downloads, and the paths it tried to remove in order. */
  datatype Report = Report(time: Instant, err: Option<SyncError>, plan: Plan, pruneOrder: seq<Path>)

  /** `performSync`, with the clock reading `now` taken at entry. */
  function PerformSync(now: Instant, lookup: FolderLookup, env: Env, walk: WalkResult): (r: Report)
    ensures r.time == now
    ensures r.err == Some(FindFolderError) <==> !lookup.FoundFolder?
    ensures r.err == Some(RecursiveSyncError) <==> lookup.FoundFolder? && !lookup.listing.complete
    ensures r.err.None? <==> lookup.FoundFolder? && lookup.listing.complete && walk.Walked?
    ensures !lookup.FoundFolder? ==> r.plan == NoPlan
    ensures lookup.FoundFolder? ==> r.plan == SyncFolder(lookup.listing.files, [], env, Seed)
    ensures r.err.Some? ==> r.pruneOrder == []
    ensures r.err.None? ==> forall p :: p in r.pruneOrder <==> p in walk.paths && p !in r.plan.marked
    ensures r.err.None? ==> LongestFirst(r.pruneOrder)
  {
    match lookup
    case LookupFailed => Report(now, Some(FindFolderError), NoPlan, [])
    case NoSuchFolder => Report(now, Some(FindFolderError), NoPlan, [])
    case FoundFolder(root) =>
      var plan := SyncFolder(root.files, [], env, Seed);
      if !root.complete then Report(now, Some(RecursiveSyncError), plan, [])
      else
        match PruneLocalFiles(walk, plan.marked)
        case None => Report(now, Some(PruneError), plan, [])
        case Some(order) => Report(now, None, plan, order)
  }

  /** The remote-path set of a cycle contains the root and is closed under "parent of". */
  lemma CycleMarksAncestorClosed(now: Instant, lookup: FolderLookup, env: Env, walk: WalkResult)
    requires lookup.FoundFolder?
    ensures var r := PerformSync(now, lookup, env, walk);
            [] in r.plan.marked && AncestorClosed(r.plan.marked)
  {
    assert AncestorClosed(Seed.marked);
    SyncFolderKeepsAncestorClosed(lookup.listing.files, [], env, Seed);
  }

  /** A cycle never selects the download root for removal. */
  lemma CycleNeverPrunesRoot(now: Instant, lookup: FolderLookup, env: Env, walk: WalkResult)
    ensures [] !in PerformSync(now, lookup, env, walk).pruneOrder
  {
    if lookup.FoundFolder? {
      CycleMarksAncestorClosed(now, lookup, env, walk);
    }
  }

  /** A local path that only workspace documents map to is not in the
      remote-path set, so a stale export of one is selected for removal. */
  lemma WorkspaceOnlyPathIsPruned(now: Instant, lookup: FolderLookup, env: Env, walk: WalkResult, p: Path)
    requires lookup.FoundFolder? && p != []
    requires forall d, g :: Visits(lookup.listing.files, [], env, d, g) && p == d + [g.name] ==> KindOf(g.mimeType) == Workspace
    ensures var r := PerformSync(now, lookup, env, walk);
            p !in r.plan.marked && (r.err.None? && p in walk.paths ==> p in r.pruneOrder)
  {
    SyncFolderExactly(lookup.listing.files, [], env, Seed);
  }

  /** After a successful cycle in which the walk covers the local tree and no
      removal reports an error, the local tree holds exactly the local paths
      that exist remotely. This holds for every longest-first order of the
      cycle's selection, so for whichever one the unstable sort produced;
      the cycle's own `pruneOrder` is one of them. */
  lemma CycleLeavesOnlyRemote(now: Instant, lookup: FolderLookup, env: Env, walk: WalkResult, order: seq<Path>, tree: set<Path>, fails: Path -> bool)
    requires PerformSync(now, lookup, env, walk).err.None?
    requires forall p :: p in walk.paths <==> p in tree
    requires var r := PerformSync(now, lookup, env, walk);
             LongestFirst(order) && forall p :: p in order <==> p in walk.paths && p !in r.plan.marked
    requires forall p :: !fails(p)
    ensures var r := PerformSync(now, lookup, env, walk);
            RemoveAll(tree, order, fails) == tree * r.plan.marked
  {
    CycleMarksAncestorClosed(now, lookup, env, walk);
    var r := PerformSync(now, lookup, env, walk);
    PruneLeavesOnlyRemote(tree, walk.paths, r.plan.marked, order, fails);
  }

  /** The cycle's own removal order is one of the orders the outcome covers. */
  lemma CycleOrderLeavesOnlyRemote(now: Instant, lookup: FolderLookup, env: Env, walk: WalkResult, tree: set<Path>, fails: Path -> bool)
    requires PerformSync(now, lookup, env, walk).err.None?
    requires forall p :: p in walk.paths <==> p in tree
    requires forall p :: !fails(p)
    ensures var r := PerformSync(now, lookup, env, walk);
            RemoveAll(tree, r.pruneOrder, fails) == tree * r.plan.marked
  {
    var r := PerformSync(now, lookup, env, walk);
    CycleLeavesOnlyRemote(now, lookup, env, walk, r.pruneOrder, tree, fails);
  }

  // ---------------------------------------------------------------------------
  // The watermark.

  /** The first cycle's watermark: zero (no filter) unless `secondsAgo > 0`. */
  function InitialWatermark(now: Instant, secondsAgo: int): (w: Instant)
    ensures secondsAgo <= 0 ==> w == ZeroInstant
    ensures secondsAgo > 0 ==> w < now
  {
    if secondsAgo > 0 then now - secondsAgo * NanosPerSecond else ZeroInstant
  }

  /** With a positive `secondsAgo` (and a clock past that many seconds after
      the zero time), the first cycle downloads a binary exactly when its
      modified time parses to an instant within the last `secondsAgo`
      seconds; with no positive `secondsAgo`, every binary whose time parses. */
  lemma InitialWatermarkWindow(now: Instant, secondsAgo: int, env: Env, f: Entry)
    requires env.since == InitialWatermark(now, secondsAgo)
    requires secondsAgo > 0 ==> now > secondsAgo * NanosPerSecond
    ensures secondsAgo > 0 ==>
      (Wanted(env, f) <==> env.parseTime(f.modifiedTime).Some? && env.parseTime(f.modifiedTime).value > now - secondsAgo * NanosPerSecond)
    ensures secondsAgo <= 0 ==> (Wanted(env, f) <==> env.parseTime(f.modifiedTime).Some?)
  {
  }

  /** The loop adopts a cycle's start time only when the cycle returned no error. */
  function NextWatermark(last: Instant, r: Report): (w: Instant)
    ensures r.err.None? ==> w == r.time
    ensures r.err.Some? ==> w == last
  {
    if r.err.None? then r.time else last
  }

  /** The external inputs of one cycle: the clock at entry and the oracle
      outcomes. The cycle's watermark is not an input: the loop supplies it. */
  datatype CycleInput = CycleInput(now: Instant, lookup: FolderLookup, env: Env, walk: WalkResult)

  predicate Succeeds(c: CycleInput)
  {
    c.lookup.FoundFolder? && c.lookup.listing.complete && c.walk.Walked?
  }

  /** One cycle of the loop, filtering by the loop's current watermark. */
  function RunCycle(w: Instant, c: CycleInput): (r: Report)
    ensures r.time == c.now
    ensures r.err.None? <==> Succeeds(c)
  {
    PerformSync(c.now, c.lookup, c.env.(since := w), c.walk)
  }

  /** Every binary a cycle downloads passes the filter of the watermark the
      loop handed it. */
  lemma CycleFetchesOnlyWanted(w: Instant, c: CycleInput)
    ensures forall x :: x in RunCycle(w, c).plan.downloads ==>
      KindOf(x.file.mimeType) == Binary && Wanted(c.env.(since := w), x.file)
  {
    if c.lookup.FoundFolder? {
      SyncFolderExactly(c.lookup.listing.files, [], c.env.(since := w), Seed);
    }
  }

  /** The watermark after running the given cycles from watermark `w`. */
  function SyncLoop(w: Instant, cycles: seq<CycleInput>): (r: Instant)
    ensures r == w || exists i :: 0 <= i < |cycles| && Succeeds(cycles[i]) && r == cycles[i].now
    decreases |cycles|
  {
    if cycles == [] then w
    else
      var next := NextWatermark(w, RunCycle(w, cycles[0]));
      var r := SyncLoop(next, cycles[1..]);
      assert r == w || exists i :: 0 <= i < |cycles| && Succeeds(cycles[i]) && r == cycles[i].now by {
        if r != next {
          var j :| 0 <= j < |cycles[1..]| && Succeeds(cycles[1..][j]) && r == cycles[1..][j].now;
          assert cycles[1..][j] == cycles[j + 1];
        } else if next != w {
          assert Succeeds(cycles[0]);
        }
      }
      r
  }

  lemma {:induction false} SyncLoopAppend(w: Instant, a: seq<CycleInput>, b: seq<CycleInput>)
    ensures SyncLoop(w, a + b) == SyncLoop(SyncLoop(w, a), b)
    decreases |a|
  {
    if a == [] {
      assert a + b == b;
    } else {
      assert (a + b)[0] == a[0];
      assert (a + b)[1..] == a[1..] + b;
      SyncLoopAppend(NextWatermark(w, RunCycle(w, a[0])), a[1..], b);
    }
  }

  lemma {:induction false} FailingCyclesKeepWatermark(w: Instant, cycles: seq<CycleInput>)
    requires forall i :: 0 <= i < |cycles| ==> !Succeeds(cycles[i])
    ensures SyncLoop(w, cycles) == w
    decreases |cycles|
  {
    if cycles != [] {
      FailingCyclesKeepWatermark(w, cycles[1..]);
    }
  }

  /** The watermark after any run of cycles is the start time of the last
      cycle that succeeded, or the initial watermark if none did. */
  lemma WatermarkIsLastSuccess(w: Instant, cycles: seq<CycleInput>, k: int)
    requires 0 <= k < |cycles| && Succeeds(cycles[k])
    requires forall i :: k < i < |cycles| ==> !Succeeds(cycles[i])
    ensures SyncLoop(w, cycles) == cycles[k].now
  {
    assert cycles == cycles[..k] + [cycles[k]] + cycles[k + 1..];
    SyncLoopAppend(w, cycles[..k] + [cycles[k]], cycles[k + 1..]);
    SyncLoopAppend(w, cycles[..k], [cycles[k]]);
    FailingCyclesKeepWatermark(cycles[k].now, cycles[k + 1..]);
  }
}

=== FILE: download.dfy ===
/**
  The skip-or-download decision of `downloadFile` and its effect on the one
  local file it concerns. SHA-256 is an opaque function `digest` from file
  content to its hex string; network and filesystem calls are outcomes
  handed in from outside.
 */
module Download {
  import opened Remote

  /** What probing the local path finds: `os.Stat` fails (for any reason), or
      it succeeds but hashing the file fails, or the file's content. */
  datatype LocalFile = Missing | Unhashable | Present(content: string)

  datatype Decision = Skip | Fetch

  /** The outcome of the fetch-and-write steps once a download is attempted:
      the request fails, `os.Create` fails, `io.Copy` fails after writing a
      prefix, or the whole body is written. */
  datatype Transfer = GetFailed | CreateFailed | CopyFailed(written: string) | Copied(body: string)

  /** A download is skipped exactly when the local file exists, its hash
      computes, and the hash equals the remote checksum. */
  function Decide(local: LocalFile, digest: string -> string, checksum: string): (d: Decision)
    ensures d == Skip <==> local.Present? && digest(local.content) == checksum
  {
    match local
    case Missing => Fetch
    case Unhashable => Fetch
    case Present(content) => if digest(content) == checksum then Skip else Fetch
  }

  /** The local file after `downloadFile`: a failed request or a failed
      create leaves it as it was; `os.Create` truncates, so a failed copy
      leaves what was written. */
  function DownloadFile(local: LocalFile, digest: string -> string, file: Entry, transfer: Transfer): (after: LocalFile)
    ensures Decide(local, digest, file.sha256Checksum) == Skip ==> after == local
    ensures transfer.GetFailed? || transfer.CreateFailed? ==> after == local
    ensures Decide(local, digest, file.sha256Checksum) == Fetch && transfer.Copied? ==> after == Present(transfer.body)
    ensures Decide(local, digest, file.sha256Checksum) == Fetch && transfer.CopyFailed? ==> after == Present(transfer.written)
  {
    match Decide(local, digest, file.sha256Checksum)
    case Skip => local
    case Fetch =>
      match transfer
      case GetFailed => local
      case CreateFailed => local
      case CopyFailed(written) => Present(written)
      case Copied(body) => Present(body)
  }

  /** Downloading a file whose content hashes to the remote checksum makes the
      next decision for that file a skip: with no remote change, a second
      cycle downloads nothing. */
  lemma DownloadThenSkip(local: LocalFile, digest: string -> string, file: Entry, transfer: Transfer)
    requires transfer.Copied? && digest(transfer.body) == file.sha256Checksum
    ensures Decide(DownloadFile(local, digest, file, transfer), digest, file.sha256Checksum) == Skip
  {
  }
}

=== FILE: mirror.dfy ===
/**
  The recursive mirror: one walk over the remote tree that builds the set of
  local paths that exist remotely and the sequence of `downloadFile` calls.
 */
module Mirror {
  import opened Wrappers
  import opened Paths
  import opened Remote

  /**
    What a traversal depends on besides the remote tree: the watermark, the
    outcome of `MkdirAll` for each local directory, and RFC 3339 parsing as a
    partial function to instants.
   */
  datatype Env = Env(since: Instant, mkdirOk: Path -> bool, parseTime: string -> Option<Instant>)

  /** One call of `downloadFile(srv, file, dir)`. */
  datatype Download = Download(dir: Path, file: Entry)

  /** The remote-path set built so far and the downloads handed out so far, in order. */
  datatype Plan = Plan(marked: set<Path>, downloads: seq<Download>)

  const NoPlan: Plan := Plan({}, [])

  /** The set a cycle starts from: only the download root exists. */
  const Seed: Plan := Plan({[]}, [])

  function Combine(a: Plan, b: Plan): Plan
  {
    Plan(a.marked + b.marked, a.downloads + b.downloads)
  }

  /** A binary is handed to `downloadFile` only when its modified time parses
      and either there is no watermark or the file is strictly newer. */
  predicate Wanted(env: Env, f: Entry): (w: bool)
    ensures w ==> env.parseTime(f.modifiedTime).Some?
  {
    match env.parseTime(f.modifiedTime)
    case None => false
    case Some(t) => env.since == ZeroInstant || t > env.since
  }

  /** Moving a set watermark later never makes a binary wanted that was not
      wanted before, and clearing it wants every binary whose time parses. */
  lemma LaterWatermarkWantsLess(env: Env, later: Instant, f: Entry)
    requires env.since <= later && (later == ZeroInstant ==> env.since == ZeroInstant)
    ensures Wanted(env.(since := later), f) ==> Wanted(env, f)
    ensures Wanted(env.(since := ZeroInstant), f) <==> env.parseTime(f.modifiedTime).Some?
  {
  }

  /** `syncFolderRecursively` over the entries of one listing, in listing order. */
  function SyncFolder(files: seq<Entry>, dir: Path, env: Env, plan: Plan): (r: Plan)
    ensures plan.marked <= r.marked
    ensures plan.downloads <= r.downloads
    decreases files, 1
  {
    if files == [] then plan
    else SyncFolder(files[1..], dir, env, Visit(files[0], dir, env, plan))
  }

  /** The body of the per-entry loop of `syncFolderRecursively`. */
  function Visit(f: Entry, dir: Path, env: Env, plan: Plan): (r: Plan)
    ensures plan.marked <= r.marked
    ensures plan.downloads <= r.downloads
    decreases f, 0
  {
    var path := dir + [f.name];
    match KindOf(f.mimeType)
    case Folder =>
      var tracked := plan.(marked := plan.marked + {path});
      if env.mkdirOk(path) then SyncFolder(f.children.files, path, env, tracked) else tracked
    case Workspace => plan
    case Binary =>
      var tracked := plan.(marked := plan.marked + {path});
      if Wanted(env, f) then tracked.(downloads := tracked.downloads + [Download(dir, f)]) else tracked
  }

  // ---------------------------------------------------------------------------
  // An independent description of the traversal: which entries get looked at,
  // in which local directory.

  /** Entry `g` is processed in local directory `d` while syncing `files` into `dir`. */
  ghost predicate Visits(files: seq<Entry>, dir: Path, env: Env, d: Path, g: Entry)
    decreases files, 1
  {
    exists i :: 0 <= i < |files| && VisitsVia(files[i], dir, env, d, g)
  }

  /** Entry `g` is `f` itself, or lies below `f` and `f`'s directory could be created. */
  ghost predicate VisitsVia(f: Entry, dir: Path, env: Env, d: Path, g: Entry)
    decreases f, 0
  {
    || (d == dir && g == f)
    || (KindOf(f.mimeType) == Folder && env.mkdirOk(dir + [f.name])
        && Visits(f.children.files, dir + [f.name], env, d, g))
  }

  /** Path `p` belongs to a visited entry that is not a workspace document. */
  ghost predicate Marks(files: seq<Entry>, dir: Path, env: Env, p: Path)
  {
    exists d, g :: Visits(files, dir, env, d, g) && KindOf(g.mimeType) != Workspace && p == d + [g.name]
  }

  ghost predicate MarksVia(f: Entry, dir: Path, env: Env, p: Path)
  {
    exists d, g :: VisitsVia(f, dir, env, d, g) && KindOf(g.mimeType) != Workspace && p == d + [g.name]
  }

  /** `x` is a visited binary that passes the watermark filter. */
  ghost predicate Fetches(files: seq<Entry>, dir: Path, env: Env, x: Download)
  {
    Visits(files, dir, env, x.dir, x.file) && KindOf(x.file.mimeType) == Binary && Wanted(env, x.file)
  }

  ghost predicate FetchesVia(f: Entry, dir: Path, env: Env, x: Download)
  {
    VisitsVia(f, dir, env, x.dir, x.file) && KindOf(x.file.mimeType) == Binary && Wanted(env, x.file)
  }

  lemma VisitsUnfold(files: seq<Entry>, dir: Path, env: Env)
    requires files != []
    ensures forall d, g :: Visits(files, dir, env, d, g) <==>
      VisitsVia(files[0], dir, env, d, g) || Visits(files[1..], dir, env, d, g)
  {
    forall d, g ensures Visits(files, dir, env, d, g) <==>
      VisitsVia(files[0], dir, env, d, g) || Visits(files[1..], dir, env, d, g)
    {
      if Visits(files, dir, env, d, g) {
        var i :| 0 <= i < |files| && VisitsVia(files[i], dir, env, d, g);
        if i > 0 {
          assert files[1..][i - 1] == files[i];
        }
      }
      if Visits(files[1..], dir, env, d, g) {
        var i :| 0 <= i < |files[1..]| && VisitsVia(files[1..][i], dir, env, d, g);
        assert files[i + 1] == files[1..][i];
      }
    }
  }

  lemma MarksUnfold(files: seq<Entry>, dir: Path, env: Env)
    requires files != []
    ensures forall p :: Marks(files, dir, env, p) <==> MarksVia(files[0], dir, env, p) || Marks(files[1..], dir, env, p)
    ensures forall x :: Fetches(files, dir, env, x) <==> FetchesVia(files[0], dir, env, x) || Fetches(files[1..], dir, env, x)
  {
    VisitsUnfold(files, dir, env);
  }

  /** The marks a traversal adds are exactly the paths of the visited
      non-workspace entries, and the downloads it adds are exactly the visited
      binaries that pass the filter. */
  lemma {:induction false} SyncFolderExactly(files: seq<Entry>, dir: Path, env: Env, plan: Plan)
    ensures forall p :: p in SyncFolder(files, dir, env, plan).marked <==> p in plan.marked || Marks(files, dir, env, p)
    ensures forall x :: x in SyncFolder(files, dir, env, plan).downloads <==> x in plan.downloads || Fetches(files, dir, env, x)
    decreases files, 1
  {
    if files != [] {
      var next := Visit(files[0], dir, env, plan);
      VisitExactly(files[0], dir, env, plan);
      SyncFolderExactly(files[1..], dir, env, next);
      MarksUnfold(files, dir, env);
    }
  }

  lemma {:induction false} VisitExactly(f: Entry, dir: Path, env: Env, plan: Plan)
    ensures forall p :: p in Visit(f, dir, env, plan).marked <==> p in plan.marked || MarksVia(f, dir, env, p)
    ensures forall x :: x in Visit(f, dir, env, plan).downloads <==> x in plan.downloads || FetchesVia(f, dir, env, x)
    decreases f, 0
  {
    var path := dir + [f.name];
    assert VisitsVia(f, dir, env, dir, f);
    match KindOf(f.mimeType)
    case Folder =>
      var tracked := plan.(marked := plan.marked + {path});
      if env.mkdirOk(path) {
        SyncFolderExactly(f.children.files, path, env, tracked);
        forall p ensures MarksVia(f, dir, env, p) <==> p == path || Marks(f.children.files, path, env, p) {
          if Marks(f.children.files, path, env, p) {
            var d, g :| Visits(f.children.files, path, env, d, g) && KindOf(g.mimeType) != Workspace && p == d + [g.name];
            assert VisitsVia(f, dir, env, d, g);
          }
        }
        forall x ensures FetchesVia(f, dir, env, x) <==> Fetches(f.children.files, path, env, x) {
        }
      } else {
        forall p ensures MarksVia(f, dir, env, p) <==> p == path {
        }
      }
    case Workspace =>
    case Binary =>
      forall x ensures FetchesVia(f, dir, env, x) <==> x == Download(dir, f) && Wanted(env, f) {
      }
  }

  // ---------------------------------------------------------------------------
  // Structure of the remote-path set.

  /** Marking happens only inside a folder that was itself marked, so the
      remote-path set stays closed under "parent of". */
  lemma {:induction false} SyncFolderKeepsAncestorClosed(files: seq<Entry>, dir: Path, env: Env, plan: Plan)
    requires AncestorClosed(plan.marked) && dir in plan.marked
    ensures AncestorClosed(SyncFolder(files, dir, env, plan).marked)
    decreases files, 1
  {
    if files != [] {
      VisitKeepsAncestorClosed(files[0], dir, env, plan);
      SyncFolderKeepsAncestorClosed(files[1..], dir, env, Visit(files[0], dir, env, plan));
    }
  }

  lemma {:induction false} VisitKeepsAncestorClosed(f: Entry, dir: Path, env: Env, plan: Plan)
    requires AncestorClosed(plan.marked) && dir in plan.marked
    ensures AncestorClosed(Visit(f, dir, env, plan).marked)
    decreases f, 0
  {
    var path := dir + [f.name];
    assert Parent(path) == dir;
    var tracked := plan.(marked := plan.marked + {path});
    match KindOf(f.mimeType)
    case Folder =>
      if env.mkdirOk(path) {
        SyncFolderKeepsAncestorClosed(f.children.files, path, env, tracked);
      }
    case Workspace =>
    case Binary =>
  }

  /** Nothing is visited outside `dir`, and every directory between `dir` and
      the place an entry is visited was created successfully: a folder whose
      `MkdirAll` fails has its subtree skipped. */
  lemma {:induction false} VisitedOnlyBelowCreatedDirs(files: seq<Entry>, dir: Path, env: Env, d: Path, g: Entry)
    requires Visits(files, dir, env, d, g)
    ensures dir <= d
    ensures forall k :: |dir| < k <= |d| ==> env.mkdirOk(d[..k])
    decreases files, 1
  {
    var i :| 0 <= i < |files| && VisitsVia(files[i], dir, env, d, g);
    VisitedViaOnlyBelowCreatedDirs(files[i], dir, env, d, g);
  }

  lemma {:induction false} VisitedViaOnlyBelowCreatedDirs(f: Entry, dir: Path, env: Env, d: Path, g: Entry)
    requires VisitsVia(f, dir, env, d, g)
    ensures dir <= d
    ensures forall k :: |dir| < k <= |d| ==> env.mkdirOk(d[..k])
    decreases f, 0
  {
    if !(d == dir && g == f) {
      var path := dir + [f.name];
      VisitedOnlyBelowCreatedDirs(f.children.files, path, env, d, g);
      assert d[..|path|] == path;
      forall k | |dir| < k <= |d| ensures env.mkdirOk(d[..k]) {
        if k == |path| {
          assert d[..k] == path;
        }
      }
    }
  }

  /** Under a directory of proper segments, a listing whose names are all
      single segments is only visited in directories of proper segments. */
  lemma {:induction false} VisitedWellNamed(files: seq<Entry>, dir: Path, env: Env, d: Path, g: Entry)
    requires WellNamed(files) && AllSegments(dir)
    requires Visits(files, dir, env, d, g)
    ensures AllSegments(d) && IsSegment(g.name)
    decreases files, 1
  {
    var i :| 0 <= i < |files| && VisitsVia(files[i], dir, env, d, g);
    VisitedViaWellNamed(files[i], dir, env, d, g);
  }

  lemma {:induction false} VisitedViaWellNamed(f: Entry, dir: Path, env: Env, d: Path, g: Entry)
    requires IsSegment(f.name) && WellNamed(f.children.files) && AllSegments(dir)
    requires VisitsVia(f, dir, env, d, g)
    ensures AllSegments(d) && IsSegment(g.name)
    decreases f, 0
  {
    if !(d == dir && g == f) {
      var path := dir + [f.name];
      assert AllSegments(path) by {
        forall k | 0 <= k < |path| ensures IsSegment(path[k]) {
          if k < |dir| {
            assert path[k] == dir[k];
          }
        }
      }
      VisitedWellNamed(f.children.files, path, env, d, g);
    }
  }

  /** With every remote name a single segment, every local path a traversal
      records is made of proper segments, so distinct paths render to
      distinct path strings. */
  lemma SyncFolderMarksSegments(files: seq<Entry>, dir: Path, env: Env, plan: Plan)
    requires WellNamed(files) && AllSegments(dir)
    requires forall p :: p in plan.marked ==> AllSegments(p)
    ensures forall p :: p in SyncFolder(files, dir, env, plan).marked ==> AllSegments(p)
  {
    SyncFolderExactly(files, dir, env, plan);
    forall p | p in SyncFolder(files, dir, env, plan).marked && p !in plan.marked ensures AllSegments(p) {
      var d, g :| Visits(files, dir, env, d, g) && KindOf(g.mimeType) != Workspace && p == d + [g.name];
      VisitedWellNamed(files, dir, env, d, g);
      forall k | 0 <= k < |p| ensures IsSegment(p[k]) {
        if k < |d| {
          assert p[k] == d[k];
        }
      }
    }
  }

  /** The downloads a traversal hands out all lie in `dir` or below it, and
      the paths it marks lie strictly below it. */
  lemma SyncFolderStaysBelow(files: seq<Entry>, dir: Path, env: Env)
    ensures forall p :: p in SyncFolder(files, dir, env, NoPlan).marked ==> dir < p
    ensures forall x :: x in SyncFolder(files, dir, env, NoPlan).downloads ==> dir <= x.dir
  {
    SyncFolderExactly(files, dir, env, NoPlan);
    forall p | p in SyncFolder(files, dir, env, NoPlan).marked ensures dir < p {
      var d, g :| Visits(files, dir, env, d, g) && KindOf(g.mimeType) != Workspace && p == d + [g.name];
      VisitedOnlyBelowCreatedDirs(files, dir, env, d, g);
    }
    forall x | x in SyncFolder(files, dir, env, NoPlan).downloads ensures dir <= x.dir {
      VisitedOnlyBelowCreatedDirs(files, dir, env, x.dir, x.file);
    }
  }

  // ---------------------------------------------------------------------------
  // Composition: what one entry contributes does not depend on what came before.

  /** Syncing a listing made of two parts is syncing the first, then the second. */
  lemma {:induction false} SyncFolderAppend(xs: seq<Entry>, ys: seq<Entry>, dir: Path, env: Env, plan: Plan)
    ensures SyncFolder(xs + ys, dir, env, plan) == SyncFolder(ys, dir, env, SyncFolder(xs, dir, env, plan))
    decreases |xs|
  {
    if xs == [] {
      assert xs + ys == ys;
    } else {
      assert (xs + ys)[0] == xs[0];
      assert (xs + ys)[1..] == xs[1..] + ys;
      SyncFolderAppend(xs[1..], ys, dir, env, Visit(xs[0], dir, env, plan));
    }
  }

  /** A traversal only adds to the plan it is given, and what it adds is the
      same whatever that plan holds. */
  lemma {:induction false} SyncFolderFrom(files: seq<Entry>, dir: Path, env: Env, plan: Plan)
    ensures SyncFolder(files, dir, env, plan) == Combine(plan, SyncFolder(files, dir, env, NoPlan))
    decreases files, 1
  {
    if files != [] {
      var v := Visit(files[0], dir, env, NoPlan);
      VisitFrom(files[0], dir, env, plan);
      VisitFrom(files[0], dir, env, NoPlan);
      SyncFolderFrom(files[1..], dir, env, Combine(plan, v));
      SyncFolderFrom(files[1..], dir, env, v);
      var rest := SyncFolder(files[1..], dir, env, NoPlan);
      assert (plan.downloads + v.downloads) + rest.downloads == plan.downloads + (v.downloads + rest.downloads);
    }
  }

  lemma {:induction false} VisitFrom(f: Entry, dir: Path, env: Env, plan: Plan)
    ensures Visit(f, dir, env, plan) == Combine(plan, Visit(f, dir, env, NoPlan))
    decreases f, 0
  {
    var path := dir + [f.name];
    match KindOf(f.mimeType)
    case Folder =>
      var tracked := plan.(marked := plan.marked + {path});
      var tracked0 := NoPlan.(marked := NoPlan.marked + {path});
      if env.mkdirOk(path) {
        SyncFolderFrom(f.children.files, path, env, tracked);
        SyncFolderFrom(f.children.files, path, env, tracked0);
        var sub := SyncFolder(f.children.files, path, env, NoPlan);
        assert Visit(f, dir, env, plan) == SyncFolder(f.children.files, path, env, tracked);
        assert Visit(f, dir, env, NoPlan) == SyncFolder(f.children.files, path, env, tracked0);
        assert plan.downloads + ([] + sub.downloads) == plan.downloads + sub.downloads;
        assert plan.marked + ({path} + sub.marked) == plan.marked + {path} + sub.marked;
      } else {
        assert plan.downloads + [] == plan.downloads;
      }
    case Workspace =>
      assert plan.downloads + [] == plan.downloads;
    case Binary =>
      assert plan.downloads + [] == plan.downloads;
  }

  /** Workspace documents are neither marked nor downloaded: a listing with one
      behaves exactly like the listing without it. */
  lemma WorkspaceEntryIgnored(a: seq<Entry>, w: Entry, b: seq<Entry>, dir: Path, env: Env, plan: Plan)
    requires KindOf(w.mimeType) == Workspace
    ensures SyncFolder(a + [w] + b, dir, env, plan) == SyncFolder(a + b, dir, env, plan)
  {
    SyncFolderAppend(a + [w], b, dir, env, plan);
    SyncFolderAppend(a, [w], dir, env, plan);
    SyncFolderAppend(a, b, dir, env, plan);
  }

  /** A failure inside one folder's subtree (a listing that stops early or
      fails, or any other difference below it) changes nothing outside that
      folder's subtree: its siblings are marked and downloaded as before. */
  lemma BranchFailureIsolated(a: seq<Entry>, f: Entry, other: Listing, b: seq<Entry>, dir: Path, env: Env, plan: Plan)
    requires KindOf(f.mimeType) == Folder
    ensures var q := dir + [f.name];
            var r1 := SyncFolder(a + [f] + b, dir, env, plan);
            var r2 := SyncFolder(a + [f.(children := other)] + b, dir, env, plan);
            && (forall p :: !(q < p) ==> (p in r1.marked <==> p in r2.marked))
            && (forall x: Download :: !(q <= x.dir) ==> (x in r1.downloads <==> x in r2.downloads))
  {
    var q := dir + [f.name];
    var f2 := f.(children := other);
    assert f2.name == f.name && f2.mimeType == f.mimeType;
    var pre := SyncFolder(a, dir, env, plan);
    SyncFolderAppend(a + [f], b, dir, env, plan);
    SyncFolderAppend(a, [f], dir, env, plan);
    SyncFolderAppend(a + [f2], b, dir, env, plan);
    SyncFolderAppend(a, [f2], dir, env, plan);
    var v1 := Visit(f, dir, env, pre);
    var v2 := Visit(f2, dir, env, pre);
    assert SyncFolder([f], dir, env, pre) == v1;
    assert SyncFolder([f2], dir, env, pre) == v2;
    VisitFrom(f, dir, env, pre);
    VisitFrom(f2, dir, env, pre);
    SyncFolderFrom(b, dir, env, v1);
    SyncFolderFrom(b, dir, env, v2);
    var tracked0 := NoPlan.(marked := NoPlan.marked + {q});
    if env.mkdirOk(q) {
      SyncFolderFrom(f.children.files, q, env, tracked0);
      SyncFolderFrom(other.files, q, env, tracked0);
      SyncFolderStaysBelow(f.children.files, q, env);
      SyncFolderStaysBelow(other.files, q, env);
    }
  }

  /** Every child that is not a workspace document is marked, whatever
      happened to the entries around it: a sub-folder whose directory cannot
      be created, a sub-folder whose listing fails, a binary whose modified
      time does not parse. */
  lemma EveryChildMarked(files: seq<Entry>, dir: Path, env: Env, plan: Plan, i: int)
    requires 0 <= i < |files|
    requires KindOf(files[i].mimeType) != Workspace
    ensures dir + [files[i].name] in SyncFolder(files, dir, env, plan).marked
  {
    SyncFolderExactly(files, dir, env, plan);
    assert VisitsVia(files[i], dir, env, dir, files[i]);
    assert Visits(files, dir, env, dir, files[i]);
  }

  /** Every download handed out is for a path in the remote-path set, so a
      freshly downloaded file is never pruned in the same cycle. */
  lemma DownloadsAreMarked(files: seq<Entry>, dir: Path, env: Env, plan: Plan)
    requires forall x :: x in plan.downloads ==> x.dir + [x.file.name] in plan.marked
    ensures var r := SyncFolder(files, dir, env, plan);
            forall x :: x in r.downloads ==> x.dir + [x.file.name] in r.marked
  {
    SyncFolderExactly(files, dir, env, plan);
  }
}

=== FILE: paths.dfy ===
/**
  Local paths of the mirror.

  The engine builds every local path with `filepath.Join(dir, name)` starting
  from the download root. Under the assumption that every remote name is one
  segment (non-empty, no `/`, neither `.` nor `..`), such a path is the root
  followed by a sequence of segments, and that is how a path is written here.
 */
module Paths {

  /** The directory the mirror is written to. */
  const DownloadDir: string := "/tmp/agents-state"

  /** A local path as the segments that follow DownloadDir; `[]` is the root itself. */
  type Path = seq<string>

  /** Go's `strings.HasPrefix(s, prefix)`. */
  predicate HasPrefix(s: string, prefix: string)
  {
    |prefix| <= |s| && s[..|prefix|] == prefix
  }

  /** A remote name that `filepath.Join` appends as exactly one segment. */
  predicate IsSegment(name: string)
  {
    |name| > 0 && '/' !in name && name != "." && name != ".."
  }

  predicate AllSegments(p: Path)
  {
    forall i :: 0 <= i < |p| ==> IsSegment(p[i])
  }

  /** `"/a/b"` for `["a", "b"]`, and `""` for `[]`. */
  function Slashed(segs: seq<string>): string
  {
    if segs == [] then "" else Slashed(segs[..|segs| - 1]) + "/" + segs[|segs| - 1]
  }

  /** The path string the engine uses as a key and hands to the filesystem. */
  function Render(p: Path): string
  {
    DownloadDir + Slashed(p)
  }

  function Parent(p: Path): Path
    requires p != []
  {
    p[..|p| - 1]
  }

  /** Every non-root member has its parent in the set too. */
  ghost predicate AncestorClosed(s: set<Path>)
  {
    forall p :: p in s && p != [] ==> Parent(p) in s
  }

  lemma {:induction false} SlashedAppend(a: seq<string>, b: seq<string>)
    ensures Slashed(a + b) == Slashed(a) + Slashed(b)
    decreases |b|
  {
    if b == [] {
      assert a + b == a;
    } else {
      var b' := b[..|b| - 1];
      assert (a + b)[..|a + b| - 1] == a + b';
      assert (a + b)[|a + b| - 1] == b[|b| - 1];
      SlashedAppend(a, b');
    }
  }

  /** Each segment a path adds lengthens its string by at least one `/`. */
  lemma {:induction false} SlashedGrows(p: seq<string>, q: seq<string>)
    requires p <= q
    ensures |Slashed(q)| >= |Slashed(p)| + |q| - |p|
    decreases |q|
  {
    if |q| > |p| {
      var q' := q[..|q| - 1];
      assert p <= q';
      SlashedGrows(p, q');
    } else {
      assert p == q;
    }
  }

  /** The number of bytes UTF-8 uses for one code point. */
  function Utf8Width(c: char): (n: nat)
    ensures 1 <= n <= 4
  {
    if c as int < 0x80 then 1
    else if c as int < 0x800 then 2
    else if c as int < 0x1_0000 then 3
    else 4
  }

  /** Go's `len(s)`: the length of a string in UTF-8 bytes. */
  function ByteLen(s: string): nat
    decreases |s|
  {
    if s == [] then 0 else ByteLen(s[..|s| - 1]) + Utf8Width(s[|s| - 1])
  }

  lemma {:induction false} ByteLenAppend(a: string, b: string)
    ensures ByteLen(a + b) == ByteLen(a) + ByteLen(b)
    decreases |b|
  {
    if b == [] {
      assert a + b == a;
    } else {
      var b' := b[..|b| - 1];
      assert (a + b)[..|a + b| - 1] == a + b';
      assert (a + b)[|a + b| - 1] == b[|b| - 1];
      ByteLenAppend(a, b');
    }
  }

  /** Each segment a path adds lengthens its string by at least one byte, its `/`. */
  lemma {:induction false} SlashedBytesGrow(p: seq<string>, q: seq<string>)
    requires p <= q
    ensures ByteLen(Slashed(q)) >= ByteLen(Slashed(p)) + |q| - |p|
    decreases |q|
  {
    if |q| > |p| {
      var q' := q[..|q| - 1];
      assert p <= q';
      SlashedBytesGrow(p, q');
      ByteLenAppend(Slashed(q') + "/", q[|q| - 1]);
      ByteLenAppend(Slashed(q'), "/");
      assert ByteLen("/") == 1 by {
        assert "/"[..0] == [];
      }
    } else {
      assert p == q;
    }
  }

  /** A strict descendant's path string has strictly more bytes than its ancestor's. */
  lemma DescendantRendersLonger(p: Path, q: Path)
    requires p < q
    ensures ByteLen(Render(p)) < ByteLen(Render(q))
  {
    SlashedBytesGrow(p, q);
    ByteLenAppend(DownloadDir, Slashed(p));
    ByteLenAppend(DownloadDir, Slashed(q));
  }

  /** In an ancestor-closed set, every prefix of a member is a member. */
  lemma {:induction false} AncestorsIncluded(s: set<Path>, p: Path, q: Path)
    requires AncestorClosed(s)
    requires q in s && p <= q
    ensures p in s
    decreases |q|
  {
    if |q| > |p| {
      assert p <= Parent(q);
      AncestorsIncluded(s, p, Parent(q));
    } else {
      assert p == q;
    }
  }

  /** Everything below a path that is missing from an ancestor-closed set is missing too. */
  lemma UnmarkedBelowUnmarked(s: set<Path>, p: Path, q: Path)
    requires AncestorClosed(s)
    requires p !in s && p <= q
    ensures q !in s
  {
    if q in s {
      AncestorsIncluded(s, p, q);
    }
  }

  lemma SlashedLength(segs: seq<string>)
    ensures |Slashed(segs)| >= |segs|
  {
    SlashedGrows([], segs);
  }

  lemma SlashInLongerTail(x: string, a: string, y: string, b: string)
    requires x + "/" + a == y + "/" + b
    requires |a| < |b|
    ensures '/' in b
  {
    var s := x + "/" + a;
    var k := |s| - |a| - 1;
    assert s[k] == '/';
    assert s[k] == b[|b| - |a| - 1];
  }

  /** The last segment of a slashed string is what follows its last `/`. */
  lemma LastSegmentDetermined(x: string, a: string, y: string, b: string)
    requires '/' !in a && '/' !in b
    requires x + "/" + a == y + "/" + b
    ensures a == b && x == y
  {
    var s := x + "/" + a;
    if |a| < |b| {
      SlashInLongerTail(x, a, y, b);
      assert false;
    } else if |b| < |a| {
      SlashInLongerTail(y, b, x, a);
      assert false;
    }
    assert a == s[|s| - |a|..] == b;
    assert x == s[..|x|] == y;
  }

  /** Distinct segment paths render to distinct strings, so a set of
      segment paths stands for the engine's map keyed by path strings. */
  lemma {:induction false} RenderInjective(p: Path, q: Path)
    requires AllSegments(p) && AllSegments(q)
    requires Render(p) == Render(q)
    ensures p == q
    decreases |p|
  {
    assert Slashed(p) == Render(p)[|DownloadDir|..] == Render(q)[|DownloadDir|..] == Slashed(q);
    if p == [] || q == [] {
      SlashedLength(p);
      SlashedLength(q);
    } else {
      assert IsSegment(p[|p| - 1]) && IsSegment(q[|q| - 1]);
      LastSegmentDetermined(Slashed(Parent(p)), p[|p| - 1], Slashed(Parent(q)), q[|q| - 1]);
      assert AllSegments(Parent(p)) by {
        forall i | 0 <= i < |Parent(p)| ensures IsSegment(Parent(p)[i]) {
          assert Parent(p)[i] == p[i];
        }
      }
      assert AllSegments(Parent(q)) by {
        forall i | 0 <= i < |Parent(q)| ensures IsSegment(Parent(q)[i]) {
          assert Parent(q)[i] == q[i];
        }
      }
      RenderInjective(Parent(p), Parent(q));
      assert p == Parent(p) + [p[|p| - 1]];
      assert q == Parent(q) + [q[|q| - 1]];
    }
  }
}

=== FILE: prune.dfy ===
/**
  Pruning: select every walked local path that is missing from the
  remote-path set, order the selection longest path first, and remove the
  paths one by one with `os.Remove`, carrying on past failures.
 */
module Prune {
  import opened Wrappers
  import opened Paths

  /** The outcome of `filepath.Walk` over the download root: the visited
      paths in walk order, or an error. */
  datatype WalkResult = WalkFailed | Walked(paths: seq<Path>)

  /** The selection step of the walk callback, in walk order. */
  function SelectStale(walked: seq<Path>, remote: set<Path>): (r: seq<Path>)
    ensures forall p :: multiset(r)[p] == if p in remote then 0 else multiset(walked)[p]
    decreases |walked|
  {
    if walked == [] then []
    else
      assert walked == [walked[0]] + walked[1..];
      (if walked[0] in remote then [] else [walked[0]]) + SelectStale(walked[1..], remote)
  }

  /** The sort key: Go's `len` of the path string, which counts UTF-8 bytes. */
  function Len(p: Path): nat
  {
    ByteLen(Render(p))
  }

  /** Non-increasing in path length. */
  ghost predicate LongestFirst(s: seq<Path>)
  {
    forall i, j :: 0 <= i < j < |s| ==> Len(s[i]) >= Len(s[j])
  }

  function Insert(p: Path, s: seq<Path>): (r: seq<Path>)
    requires LongestFirst(s)
    ensures LongestFirst(r)
    ensures multiset(r) == multiset(s) + multiset{p}
    ensures r != [] && (Len(r[0]) == Len(p) || (s != [] && r[0] == s[0]))
    decreases |s|
  {
    if s == [] || Len(p) >= Len(s[0]) then [p] + s
    else
      var rest := Insert(p, s[1..]);
      InsertBehind(p, s, rest);
      [s[0]] + rest
  }

  /** The step of `Insert` that keeps the head of `s` in front. */
  lemma InsertBehind(p: Path, s: seq<Path>, rest: seq<Path>)
    requires s != [] && LongestFirst(s) && Len(p) < Len(s[0])
    requires LongestFirst(rest) && multiset(rest) == multiset(s[1..]) + multiset{p}
    requires rest != [] && (Len(rest[0]) == Len(p) || (s[1..] != [] && rest[0] == s[1..][0]))
    ensures LongestFirst([s[0]] + rest)
    ensures multiset([s[0]] + rest) == multiset(s) + multiset{p}
  {
    TailLongestFirst(s);
    ConsLongestFirst(s[0], rest);
  }

  lemma ConsLongestFirst(x: Path, s: seq<Path>)
    requires LongestFirst(s)
    requires s != [] ==> Len(x) >= Len(s[0])
    ensures LongestFirst([x] + s)
  {
    forall i, j | 0 <= i < j < |s| + 1 ensures Len(([x] + s)[i]) >= Len(([x] + s)[j]) {
      if i > 0 {
        assert ([x] + s)[i] == s[i - 1];
      } else if j > 1 {
        assert Len(s[0]) >= Len(s[j - 1]);
      }
    }
  }

  lemma TailLongestFirst(s: seq<Path>)
    requires s != [] && LongestFirst(s)
    ensures LongestFirst(s[1..])
    ensures s == [s[0]] + s[1..]
    ensures forall j :: 0 <= j < |s[1..]| ==> Len(s[0]) >= Len(s[1..][j])
  {
    forall i, j | 0 <= i < j < |s| - 1 ensures Len(s[1..][i]) >= Len(s[1..][j]) {
      assert s[1..][i] == s[i + 1] && s[1..][j] == s[j + 1];
    }
    forall j | 0 <= j < |s| - 1 ensures Len(s[0]) >= Len(s[1..][j]) {
      assert s[1..][j] == s[j + 1];
    }
  }

  /** `sort.Slice` by descending length. Go's sort is not stable, so its order
      among paths of equal length is unspecified and this is one such order.
      `ChildBeforeParent`, `PruneOutcome` and `PruneLeavesOnlyRemote` take an
      arbitrary longest-first order, so they hold for the one Go produces. */
  function SortLongestFirst(s: seq<Path>): (r: seq<Path>)
    ensures LongestFirst(r)
    ensures multiset(r) == multiset(s)
    decreases |s|
  {
    if s == [] then []
    else
      assert s == [s[0]] + s[1..];
      Insert(s[0], SortLongestFirst(s[1..]))
  }

  /** The ordered list of paths `pruneLocalFiles` tries to remove. */
  function PruneOrder(walked: seq<Path>, remote: set<Path>): (r: seq<Path>)
    ensures LongestFirst(r)
    ensures forall p :: multiset(r)[p] == if p in remote then 0 else multiset(walked)[p]
  {
    SortLongestFirst(SelectStale(walked, remote))
  }

  /** `pruneLocalFiles`: an error exactly when the walk fails, and then nothing
      is removed; otherwise the removal order. A failed removal is only logged. */
  function PruneLocalFiles(walk: WalkResult, remote: set<Path>): (r: Option<seq<Path>>)
    ensures r.None? <==> walk.WalkFailed?
    ensures r.Some? ==> forall p :: p in r.value <==> p in walk.paths && p !in remote
    ensures r.Some? ==> LongestFirst(r.value)
  {
    match walk
    case WalkFailed => None
    case Walked(paths) =>
      PruneSelectsExactly(paths, remote);
      Some(PruneOrder(paths, remote))
  }

  /** The selection is exactly the walked paths absent from the remote set,
      each as often as the walk produced it. */
  lemma PruneSelectsExactly(walked: seq<Path>, remote: set<Path>)
    ensures forall p :: p in PruneOrder(walked, remote) <==> p in walked && p !in remote
  {
    var order := PruneOrder(walked, remote);
    forall p ensures p in order <==> p in walked && p !in remote {
      assert p in order <==> multiset(order)[p] > 0;
      assert p in walked <==> multiset(walked)[p] > 0;
    }
  }

  /** The remote-path set is seeded with the root, so the root is never selected. */
  lemma RootNeverPruned(walked: seq<Path>, remote: set<Path>)
    requires [] in remote
    ensures [] !in PruneOrder(walked, remote)
  {
    PruneSelectsExactly(walked, remote);
  }

  /** In a longest-first order, a strict descendant always comes before its ancestor. */
  lemma ChildBeforeParent(order: seq<Path>, i: int, j: int)
    requires LongestFirst(order)
    requires 0 <= i < |order| && 0 <= j < |order|
    requires order[i] < order[j]
    ensures j < i
  {
    DescendantRendersLonger(order[i], order[j]);
  }

  // ---------------------------------------------------------------------------
  // Effect of the removals on the local tree.

  /** `os.Remove(p)`: it fails when the filesystem reports an error (`fails`),
      when `p` is already gone, or when `p` is a directory that still has
      entries; otherwise `p` is gone afterwards. */
  function RemoveOne(tree: set<Path>, p: Path, fails: Path -> bool): (r: set<Path>)
    ensures r <= tree
    ensures r == tree || r == tree - {p}
  {
    if p in tree && !fails(p) && (forall q | q in tree :: !(p < q)) then tree - {p} else tree
  }

  /** The removal loop: every path of the order is tried, whatever happened to the earlier ones. */
  function RemoveAll(tree: set<Path>, order: seq<Path>, fails: Path -> bool): (r: set<Path>)
    ensures r <= tree
    decreases |order|
  {
    if order == [] then tree else RemoveAll(RemoveOne(tree, order[0], fails), order[1..], fails)
  }

  /** Some selected path at or below `p` cannot be removed. */
  ghost predicate Blocked(selected: set<Path>, fails: Path -> bool, p: Path)
  {
    exists q :: q in selected && p <= q && fails(q)
  }

  /** Every path below a selected path is selected too. */
  ghost predicate ClosedBelow(selected: set<Path>, tree: set<Path>)
  {
    forall p, q :: p in selected && q in tree && p <= q ==> q in selected
  }

  ghost function Removed(prefix: seq<Path>, selected: set<Path>, fails: Path -> bool): set<Path>
  {
    set p | p in prefix && !Blocked(selected, fails, p)
  }

  lemma {:induction false} RemoveStep(tree: set<Path>, order: seq<Path>, fails: Path -> bool, i: int)
    requires 0 <= i < |order|
    requires LongestFirst(order)
    requires var selected := set p | p in order; selected <= tree && ClosedBelow(selected, tree)
    ensures var selected := set p | p in order;
            RemoveOne(tree - Removed(order[..i], selected, fails), order[i], fails)
              == tree - Removed(order[..i + 1], selected, fails)
  {
    var selected := set p | p in order;
    var p := order[i];
    var before := Removed(order[..i], selected, fails);
    var after := Removed(order[..i + 1], selected, fails);
    var t := tree - before;
    assert order[..i + 1] == order[..i] + [p];
    assert p in selected;
    if Blocked(selected, fails, p) {
      assert after == before;
      if p in t && !fails(p) {
        var q :| q in selected && p <= q && fails(q);
        assert q != p;
        assert p < q;
        assert q !in before;
        assert q in t;
      }
    } else {
      assert after == before + {p};
      assert !fails(p);
      if p in t {
        forall q | q in t ensures !(p < q) {
          if p < q {
            assert q in selected;
            var j :| 0 <= j < |order| && order[j] == q;
            if j == i {
              assert false;
            } else if j > i {
              ChildBeforeParent(order, i, j);
              assert false;
            } else {
              assert false;
            }
          }
        }
      }
    }
  }

  lemma {:induction false} RemoveFrom(tree: set<Path>, order: seq<Path>, fails: Path -> bool, i: int)
    requires 0 <= i <= |order|
    requires LongestFirst(order)
    requires var selected := set p | p in order; selected <= tree && ClosedBelow(selected, tree)
    ensures var selected := set p | p in order;
            RemoveAll(tree - Removed(order[..i], selected, fails), order[i..], fails)
              == tree - Removed(order, selected, fails)
    decreases |order| - i
  {
    var selected := set p | p in order;
    if i == |order| {
      assert order[..i] == order;
    } else {
      RemoveStep(tree, order, fails, i);
      assert order[i..][0] == order[i];
      assert order[i..][1..] == order[i + 1..];
      RemoveFrom(tree, order, fails, i + 1);
    }
  }

  /** Removing a selection that is closed below, longest path first, removes
      exactly the selected paths that have no failing path at or below them:
      a failed removal keeps only its own ancestors in place, and every other
      removal still happens. */
  lemma PruneOutcome(tree: set<Path>, order: seq<Path>, fails: Path -> bool)
    requires LongestFirst(order)
    requires var selected := set p | p in order; selected <= tree && ClosedBelow(selected, tree)
    ensures var selected := set p | p in order;
            forall p :: p in RemoveAll(tree, order, fails) <==> p in tree && !(p in selected && !Blocked(selected, fails, p))
  {
    var selected := set p | p in order;
    assert order[..0] == [];
    assert Removed([], selected, fails) == {};
    assert order[0..] == order;
    assert tree - {} == tree;
    RemoveFrom(tree, order, fails, 0);
    var r := RemoveAll(tree, order, fails);
    assert r == tree - Removed(order, selected, fails);
    forall p ensures p in r <==> p in tree && !(p in selected && !Blocked(selected, fails, p)) {
      assert p in Removed(order, selected, fails) <==> p in selected && !Blocked(selected, fails, p);
    }
  }

  /** With the remote-path set ancestor-closed and the walk covering the local
      tree, a prune in which no removal reports an error leaves exactly the
      local paths that exist remotely, whichever longest-first order of the
      selection the sort produced. */
  lemma PruneLeavesOnlyRemote(tree: set<Path>, walked: seq<Path>, remote: set<Path>, order: seq<Path>, fails: Path -> bool)
    requires AncestorClosed(remote)
    requires forall p :: p in walked <==> p in tree
    requires LongestFirst(order) && forall p :: p in order <==> p in walked && p !in remote
    requires forall p :: !fails(p)
    ensures RemoveAll(tree, order, fails) == tree * remote
  {
    var selected := set p | p in order;
    forall p, q | p in selected && q in tree && p <= q ensures q in selected {
      UnmarkedBelowUnmarked(remote, p, q);
    }
    assert ClosedBelow(selected, tree);
    PruneOutcome(tree, order, fails);
    var r := RemoveAll(tree, order, fails);
    forall p ensures p in r <==> p in tree * remote {
      assert !Blocked(selected, fails, p);
      assert p in selected <==> p in walked && p !in remote;
    }
  }
}

=== FILE: remote.dfy ===
/**
  The remote tree as the engine sees it during one cycle.

  Every listing the engine asks for is an oracle: it delivers some entries
  page by page and either finishes or fails. A folder entry carries the
  result of listing its own id, so a whole cycle's worth of listing results
  is one finite tree.
 */
module Remote {
  import opened Paths

  const FolderMimeType: string := "application/vnd.google-apps.folder"
  const WorkspacePrefix: string := "application/vnd.google-apps."

  /** An instant in nanoseconds since Go's zero time (January 1, year 1, UTC), so the zero time is 0. */
  type Instant = int

  const ZeroInstant: Instant := 0

  /**
    One child of a listed folder, with the fields the engine requests.
    An absent modified time or checksum is the empty string, as in the client
    library. `children` is what listing this entry's id returns; it is only
    consulted for folders.
   */
  datatype Entry = Entry(
    id: string,
    name: string,
    mimeType: string,
    modifiedTime: string,
    sha256Checksum: string,
    children: Listing)

  /** The entries of the pages that arrived, and whether the paging finished without error. */
  datatype Listing = Listing(files: seq<Entry>, complete: bool)

  datatype Kind = Folder | Workspace | Binary

  /** The engine's three-way split of a child by mime type, with the folder test first. */
  function KindOf(mimeType: string): (k: Kind)
    ensures k == Folder <==> mimeType == FolderMimeType
    ensures k == Workspace <==> mimeType != FolderMimeType && HasPrefix(mimeType, WorkspacePrefix)
  {
    if mimeType == FolderMimeType then Folder
    else if HasPrefix(mimeType, WorkspacePrefix) then Workspace
    else Binary
  }

  /** The folder type itself carries the workspace prefix: only testing for
      folders first keeps folders from being skipped as workspace documents. */
  lemma FolderTestComesFirst()
    ensures HasPrefix(FolderMimeType, WorkspacePrefix)
    ensures KindOf(FolderMimeType) == Folder
  {
    assert FolderMimeType[..|WorkspacePrefix|] == WorkspacePrefix;
  }

  /** Every name in the listing, and in the listings below its folders, is a single segment. */
  ghost predicate WellNamed(files: seq<Entry>)
    decreases files
  {
    forall i :: 0 <= i < |files| ==> IsSegment(files[i].name) && WellNamed(files[i].children.files)
  }
}

=== FILE: serve.dfy ===
/**
  The read-only file server: `fileHandler` maps a request path to a response,
  and `listDirectory` names the entries of a directory.

  `filepath.Join` is lexical cleaning over `/`-separated segments; the local
  filesystem is a map from cleaned path strings to what `os.Stat` and
  `os.ReadDir` report there.
 */
module Serve {
  import opened Paths

  /** The segments of the download root: `Slashed(RootSegs) == DownloadDir`. */
  const RootSegs: seq<string> := ["tmp", "agents-state"]

  /** `strings.TrimPrefix(s, "/")`. */
  function TrimSlash(s: string): (r: string)
    ensures HasPrefix(s, "/") ==> "/" + r == s
    ensures !HasPrefix(s, "/") ==> r == s
  {
    if |s| > 0 && s[0] == '/' then s[1..] else s
  }

  /** `strings.Split(s, "/")`: there is one more piece than there are slashes. */
  function Split(s: string): (r: seq<string>)
    ensures |r| >= 1
    decreases |s|
  {
    if |s| == 0 then [""] else PushChar(s[0], Split(s[1..]))
  }

  /** Put one more character in front of the pieces of the rest of a string. */
  function PushChar(c: char, pieces: seq<string>): (r: seq<string>)
    requires |pieces| >= 1
    ensures |r| >= 1
  {
    if c == '/' then [""] + pieces else [[c] + pieces[0]] + pieces[1..]
  }

  /** The segment stack of a rooted path after reading `segs` left to right:
      empty and `.` segments are dropped, `..` pops one segment and never
      climbs above the root. */
  function Normalize(segs: seq<string>, stack: seq<string>): seq<string>
    decreases |segs|
  {
    if segs == [] then stack
    else
      var s := segs[0];
      var next :=
        if s == "" || s == "." then stack
        else if s == ".." then (if stack == [] then [] else stack[..|stack| - 1])
        else stack + [s];
      Normalize(segs[1..], next)
  }

  function Absolute(stack: seq<string>): string
  {
    if stack == [] then "/" else Slashed(stack)
  }

  /** `filepath.Clean` on a rooted path. */
  function CleanRooted(s: string): string
  {
    Absolute(Normalize(Split(s), []))
  }

  /** `filepath.Join(dir, elem)` for a rooted `dir`: an empty element is ignored. */
  function Join(dir: string, elem: string): string
  {
    CleanRooted(if elem == "" then dir else dir + "/" + elem)
  }

  /** The `safePath` the handler computes for a request path. */
  function ResolvePath(urlPath: string): string
  {
    Join(DownloadDir, TrimSlash(urlPath))
  }

  datatype DirEntry = DirEntry(name: string, isDir: bool)

  /** `os.ReadDir`: an error, or the entries in the order it returns them. */
  datatype ReadDir = ReadDirFailed | ReadDirOk(entries: seq<DirEntry>)

  /** What `os.Stat` finds at a path that exists: a directory, anything else
      (a regular file, a device, a FIFO, the target of a symlink), or a stat
      error other than "does not exist". */
  datatype Node = Directory(read: ReadDir) | NotDirectory | StatFailed

  /** Paths absent from the map do not exist. */
  type Filesystem = map<string, Node>

  /** An error written with `http.Error`/`http.NotFound`, a JSON listing, or
      the content `http.ServeFile` sends from the given path. */
  datatype Response = HttpError(status: int, body: string) | JsonListing(entries: seq<string>) | ServeFile(path: string)

  const Forbidden: Response := HttpError(403, "Forbidden\n")
  const NotFound: Response := HttpError(404, "404 page not found\n")
  const InternalError: Response := HttpError(500, "Internal Server Error\n")
  const ReadDirError: Response := HttpError(500, "Failed to read directory\n")
  const InvalidPath: Response := HttpError(400, "invalid URL path\n")

  /** The pieces of a string split at every `/` and every `\\`. */
  function SplitSlashes(s: string): (r: seq<string>)
    ensures |r| >= 1
    decreases |s|
  {
    if |s| == 0 then [""]
    else
      var rest := SplitSlashes(s[1..]);
      if s[0] == '/' || s[0] == '\\' then [""] + rest else [[s[0]] + rest[0]] + rest[1..]
  }

  /** The guard `http.ServeFile` applies to the request path before serving:
      some element between slashes or backslashes is `..`. */
  predicate ContainsDotDot(urlPath: string)
  {
    ".." in SplitSlashes(urlPath)
  }

  /** A listing name: directories carry a trailing `/`. */
  function EntryName(e: DirEntry): string
  {
    if e.isDir then e.name + "/" else e.name
  }

  /** One name per entry, in read order. */
  function EntryNames(es: seq<DirEntry>): (r: seq<string>)
    ensures |r| == |es|
    ensures forall i :: 0 <= i < |es| ==> r[i] == EntryName(es[i])
    decreases |es|
  {
    if es == [] then [] else [EntryName(es[0])] + EntryNames(es[1..])
  }

  /** `listDirectory`: a read error gives 500 and no listing. */
  function ListDirectory(read: ReadDir): (r: Response)
    ensures read.ReadDirFailed? ==> r == ReadDirError
    ensures read.ReadDirOk? ==> r == JsonListing(EntryNames(read.entries))
  {
    match read
    case ReadDirFailed => ReadDirError
    case ReadDirOk(entries) => JsonListing(EntryNames(entries))
  }

  /** `fileHandler`, with the containment test exactly as written: a string
      prefix test against the download root. */
  function FileHandler(urlPath: string, fs: Filesystem): (r: Response)
    ensures r == Forbidden <==> !HasPrefix(ResolvePath(urlPath), DownloadDir)
    ensures r.ServeFile? ==> r.path == ResolvePath(urlPath)
  {
    var safe := ResolvePath(urlPath);
    if !HasPrefix(safe, DownloadDir) then Forbidden else Admitted(urlPath, safe, fs)
  }

  /** What the handler does with a cleaned path that passed its containment
      test: 404 when nothing is there, 500 when `os.Stat` fails, a listing
      for a directory; anything else goes to `http.ServeFile`, which answers
      400 when the request path has a `..` element and sends the file
      otherwise. */
  function Admitted(urlPath: string, safe: string, fs: Filesystem): (r: Response)
    ensures r.HttpError? ==> r.status != Forbidden.status
    ensures safe !in fs <==> r == NotFound
    ensures r.ServeFile? <==> safe in fs && fs[safe] == NotDirectory && !ContainsDotDot(urlPath)
    ensures r.ServeFile? ==> r.path == safe
    ensures safe in fs && fs[safe] == NotDirectory && ContainsDotDot(urlPath) ==> r == InvalidPath
    ensures safe in fs && fs[safe] == StatFailed ==> r == InternalError
    ensures safe in fs && fs[safe].Directory? ==> r == ListDirectory(fs[safe].read)
  {
    if safe !in fs then NotFound
    else
      match fs[safe]
      case StatFailed => InternalError
      case Directory(read) => ListDirectory(read)
      case NotDirectory => if ContainsDotDot(urlPath) then InvalidPath else ServeFile(safe)
  }

  // ---------------------------------------------------------------------------
  // Lexical cleaning.

  /** `strings.Join(pieces, "/")`. */
  function Glue(pieces: seq<string>): string
    requires |pieces| >= 1
    decreases |pieces|
  {
    if |pieces| == 1 then pieces[0] else pieces[0] + "/" + Glue(pieces[1..])
  }

  /** No piece holds a slash. */
  predicate Unslashed(pieces: seq<string>)
  {
    forall i :: 0 <= i < |pieces| ==> '/' !in pieces[i]
  }

  /** Splitting at `/` loses nothing: the pieces hold no slash and joining
      them with `/` gives the string back. */
  lemma {:induction false} SplitRoundTrip(s: string)
    ensures Unslashed(Split(s))
    ensures Glue(Split(s)) == s
    decreases |s|
  {
    if |s| > 0 {
      SplitRoundTrip(s[1..]);
      assert s == [s[0]] + s[1..];
      if s[0] == '/' {
        GlueAfterSlash(s[1..], Split(s[1..]));
      } else {
        GlueAfterOther(s[0], s[1..], Split(s[1..]));
      }
    }
  }

  /** A `/` in front of a string puts an empty piece in front of its pieces. */
  lemma GlueAfterSlash(t: string, p: seq<string>)
    requires |p| >= 1 && Unslashed(p) && Glue(p) == t
    ensures Unslashed([""] + p) && Glue([""] + p) == "/" + t
  {
    var sp := [""] + p;
    assert sp[1..] == p;
    forall i | 0 <= i < |sp| ensures '/' !in sp[i] {
      if i > 0 {
        assert sp[i] == p[i - 1];
      }
    }
  }

  /** Any other character in front of a string extends its first piece. */
  lemma GlueAfterOther(c: char, t: string, p: seq<string>)
    requires c != '/' && |p| >= 1 && Unslashed(p) && Glue(p) == t
    ensures Unslashed([[c] + p[0]] + p[1..]) && Glue([[c] + p[0]] + p[1..]) == [c] + t
  {
    UnslashedExtendHead(c, p);
    GlueExtendHead(c, p[0], p[1..]);
    assert p == [p[0]] + p[1..];
  }

  lemma UnslashedExtendHead(c: char, p: seq<string>)
    requires c != '/' && |p| >= 1 && Unslashed(p)
    ensures Unslashed([[c] + p[0]] + p[1..])
  {
    var head := [c] + p[0];
    var sp := [head] + p[1..];
    assert '/' !in head by {
      assert forall k :: 1 <= k < |head| ==> head[k] == p[0][k - 1];
    }
    forall i | 1 <= i < |sp| ensures '/' !in sp[i] {
      assert sp[i] == p[i];
    }
  }

  lemma GlueExtendHead(c: char, x: string, rest: seq<string>)
    ensures Glue([[c] + x] + rest) == [c] + Glue([x] + rest)
  {
    if rest == [] {
      assert [[c] + x] + rest == [[c] + x];
      assert [x] + rest == [x];
    } else {
      GlueCons([c] + x, rest);
      GlueCons(x, rest);
      AppendAssoc([c], x, "/" + Glue(rest));
    }
  }

  lemma GlueCons(x: string, rest: seq<string>)
    requires |rest| >= 1
    ensures Glue([x] + rest) == x + "/" + Glue(rest)
  {
    assert ([x] + rest)[1..] == rest;
  }

  lemma AppendAssoc(a: string, b: string, c: string)
    ensures (a + b) + c == a + (b + c)
  {
  }

  /** And the other way round: slash-free pieces joined with `/` split back
      into the same pieces. */
  lemma {:induction false} GlueRoundTrip(pieces: seq<string>)
    requires |pieces| >= 1 && Unslashed(pieces)
    ensures Split(Glue(pieces)) == pieces
    decreases |pieces|
  {
    SplitPlain(pieces[0]);
    if |pieces| > 1 {
      assert Unslashed(pieces[1..]) by {
        forall i | 0 <= i < |pieces| - 1 ensures '/' !in pieces[1..][i] {
          assert pieces[1..][i] == pieces[i + 1];
        }
      }
      GlueRoundTrip(pieces[1..]);
      SplitJoin(pieces[0], Glue(pieces[1..]));
    }
  }

  lemma {:induction false} SplitPlain(s: string)
    requires '/' !in s
    ensures Split(s) == [s]
    decreases |s|
  {
    if |s| > 0 {
      SplitPlain(s[1..]);
      assert [s[0]] + s[1..] == s;
    }
  }

  /** Prepending a character to the first piece commutes with appending pieces. */
  lemma ExtendFirstPiece(c: char, rest: seq<string>, tail: seq<string>)
    requires |rest| >= 1
    ensures [[c] + (rest + tail)[0]] + (rest + tail)[1..] == ([[c] + rest[0]] + rest[1..]) + tail
  {
    assert (rest + tail)[0] == rest[0];
    assert (rest + tail)[1..] == rest[1..] + tail;
  }

  lemma {:induction false} SplitJoin(a: string, b: string)
    ensures Split(a + "/" + b) == Split(a) + Split(b)
    decreases |a|
  {
    var s := a + "/" + b;
    if |a| == 0 {
      assert s == "/" + b;
      assert s[0] == '/' && s[1..] == b;
    } else {
      assert s[0] == a[0];
      assert s[1..] == a[1..] + "/" + b;
      SplitJoin(a[1..], b);
      if a[0] != '/' {
        ExtendFirstPiece(a[0], Split(a[1..]), Split(b));
      }
    }
  }

  lemma {:induction false} SplitSlashed(segs: seq<string>)
    requires forall i :: 0 <= i < |segs| ==> '/' !in segs[i]
    ensures Split(Slashed(segs)) == [""] + segs
    decreases |segs|
  {
    if segs != [] {
      var init := segs[..|segs| - 1];
      SplitSlashed(init);
      SplitJoin(Slashed(init), segs[|segs| - 1]);
      SplitPlain(segs[|segs| - 1]);
      assert segs == init + [segs[|segs| - 1]];
    }
  }

  lemma RootSegsRender()
    ensures Slashed(RootSegs) == DownloadDir
    ensures Split(DownloadDir) == [""] + RootSegs
  {
    assert RootSegs[..1] == ["tmp"];
    assert ["tmp"][..0] == [];
    assert Slashed(["tmp"]) == "/tmp";
    SplitSlashed(RootSegs);
  }

  lemma {:induction false} NormalizeAppend(a: seq<string>, b: seq<string>, stack: seq<string>)
    ensures Normalize(a + b, stack) == Normalize(b, Normalize(a, stack))
    decreases |a|
  {
    if a == [] {
      assert a + b == b;
    } else {
      assert (a + b)[0] == a[0];
      assert (a + b)[1..] == a[1..] + b;
      var s := a[0];
      var next :=
        if s == "" || s == "." then stack
        else if s == ".." then (if stack == [] then [] else stack[..|stack| - 1])
        else stack + [s];
      NormalizeAppend(a[1..], b, next);
    }
  }

  /** The segments that survive cleaning when there is no `..`. */
  function Kept(segs: seq<string>): seq<string>
    decreases |segs|
  {
    if segs == [] then []
    else (if segs[0] == "" || segs[0] == "." then [] else [segs[0]]) + Kept(segs[1..])
  }

  /** Without a `..`, cleaning only appends the non-empty, non-`.` segments. */
  lemma {:induction false} NormalizeWithoutDotDot(segs: seq<string>, stack: seq<string>)
    requires forall i :: 0 <= i < |segs| ==> segs[i] != ".."
    ensures Normalize(segs, stack) == stack + Kept(segs)
    decreases |segs|
  {
    if segs != [] {
      var s := segs[0];
      var next := if s == "" || s == "." then stack else stack + [s];
      NormalizeWithoutDotDot(segs[1..], next);
      assert stack + ((if s == "" || s == "." then [] else [s]) + Kept(segs[1..])) == next + Kept(segs[1..]);
    }
  }

  lemma RootKept()
    ensures Kept([""] + RootSegs) == RootSegs
  {
    assert ([""] + RootSegs)[1..] == RootSegs;
    assert RootSegs[1..] == ["agents-state"];
    assert ["agents-state"][1..] == [];
  }

  /** Cleaning the root's own segments gives them back. */
  lemma NormalizeRoot()
    ensures Normalize([""] + RootSegs, []) == RootSegs
  {
    RootKept();
    NormalizeWithoutDotDot([""] + RootSegs, []);
  }

  lemma CleanRoot()
    ensures CleanRooted(DownloadDir) == DownloadDir
  {
    RootSegsRender();
    NormalizeRoot();
  }

  /** Cleaning slash-free pieces onto a stack of single segments leaves a
      stack of single segments: none empty, `.`, `..` or holding a slash. */
  lemma {:induction false} NormalizeProper(segs: seq<string>, stack: seq<string>)
    requires Unslashed(segs) && AllSegments(stack)
    ensures AllSegments(Normalize(segs, stack))
    decreases |segs|
  {
    if segs != [] {
      var s := segs[0];
      assert '/' !in s;
      var next :=
        if s == "" || s == "." then stack
        else if s == ".." then (if stack == [] then [] else stack[..|stack| - 1])
        else stack + [s];
      assert AllSegments(next) by {
        forall i | 0 <= i < |next| ensures IsSegment(next[i]) {
          if i < |stack| {
            assert next[i] == stack[i];
          }
        }
      }
      assert Unslashed(segs[1..]) by {
        forall i | 0 <= i < |segs| - 1 ensures '/' !in segs[1..][i] {
          assert segs[1..][i] == segs[i + 1];
        }
      }
      NormalizeProper(segs[1..], next);
    }
  }

  lemma {:induction false} KeptProper(segs: seq<string>)
    requires AllSegments(segs)
    ensures Kept(segs) == segs
    decreases |segs|
  {
    if segs != [] {
      assert AllSegments(segs[1..]) by {
        forall i | 0 <= i < |segs| - 1 ensures IsSegment(segs[1..][i]) {
          assert segs[1..][i] == segs[i + 1];
        }
      }
      KeptProper(segs[1..]);
      assert IsSegment(segs[0]);
      assert segs == [segs[0]] + segs[1..];
    }
  }

  /** A cleaned path has the segments it was cleaned to. */
  lemma CleanSegments(s: string)
    ensures Normalize(Split(CleanRooted(s)), []) == Normalize(Split(s), [])
  {
    var st := Normalize(Split(s), []);
    SplitRoundTrip(s);
    NormalizeProper(Split(s), []);
    if st == [] {
      assert "/"[0] == '/' && "/"[1..] == "";
      assert Split("/") == ["", ""];
      NormalizeWithoutDotDot(["", ""], []);
    } else {
      SplitSlashed(st);
      NormalizeWithoutDotDot([""] + st, []);
      assert ([""] + st)[1..] == st;
      KeptProper(st);
    }
  }

  /** `filepath.Clean` is idempotent, and a rooted path stays rooted. */
  lemma CleanIdempotent(s: string)
    ensures HasPrefix(CleanRooted(s), "/")
    ensures CleanRooted(CleanRooted(s)) == CleanRooted(s)
  {
    CleanSegments(s);
    var st := Normalize(Split(s), []);
    if st != [] {
      SlashedStartsWithSlash(st);
    }
  }

  /** Joining onto a directory gives the same as joining onto its cleaned form. */
  lemma JoinCleanDir(dir: string, elem: string)
    ensures Join(CleanRooted(dir), elem) == Join(dir, elem)
  {
    CleanSegments(dir);
    if elem == "" {
      CleanIdempotent(dir);
    } else {
      SplitJoin(dir, elem);
      SplitJoin(CleanRooted(dir), elem);
      NormalizeAppend(Split(dir), Split(elem), []);
      NormalizeAppend(Split(CleanRooted(dir)), Split(elem), []);
    }
  }

  /** The handler's `safePath` is rooted and already clean. */
  lemma ResolveIsClean(urlPath: string)
    ensures HasPrefix(ResolvePath(urlPath), "/")
    ensures CleanRooted(ResolvePath(urlPath)) == ResolvePath(urlPath)
  {
    var t := TrimSlash(urlPath);
    CleanIdempotent(if t == "" then DownloadDir else DownloadDir + "/" + t);
  }

  /** The request path split as the handler's join sees it, after the root. */
  lemma ResolveSplits(urlPath: string)
    requires TrimSlash(urlPath) != ""
    ensures ResolvePath(urlPath) == Absolute(Normalize(Split(TrimSlash(urlPath)), RootSegs))
  {
    var t := TrimSlash(urlPath);
    RootSegsRender();
    SplitJoin(DownloadDir, t);
    NormalizeAppend([""] + RootSegs, Split(t), []);
    NormalizeRoot();
  }

  /** Lies at or below the download root, segment-wise. */
  predicate InsideRoot(s: string)
  {
    s == DownloadDir || HasPrefix(s, DownloadDir + "/")
  }

  // ---------------------------------------------------------------------------
  // What the handler guarantees.

  /** The bare root `/` (or the empty path) resolves to the download root
      itself, which is then listed like any other directory. */
  lemma RootIsListed(urlPath: string, fs: Filesystem, read: ReadDir)
    requires TrimSlash(urlPath) == ""
    requires DownloadDir in fs && fs[DownloadDir] == Directory(read)
    ensures ResolvePath(urlPath) == DownloadDir
    ensures FileHandler(urlPath, fs) == ListDirectory(read)
  {
    EmptyRequestIsRoot(urlPath);
    InsideHasPrefix(ResolvePath(urlPath));
    assert FileHandler(urlPath, fs) == Admitted(urlPath, ResolvePath(urlPath), fs);
  }

  lemma InsideHasPrefix(s: string)
    requires InsideRoot(s)
    ensures HasPrefix(s, DownloadDir)
  {
    if s != DownloadDir {
      assert s[..|DownloadDir|] == (DownloadDir + "/")[..|DownloadDir|];
    }
  }

  lemma {:induction false} SlashedStartsWithSlash(k: seq<string>)
    requires k != []
    ensures HasPrefix(Slashed(k), "/")
    decreases |k|
  {
    var init := k[..|k| - 1];
    if init != [] {
      SlashedStartsWithSlash(init);
    }
  }

  /** A string that starts with `/` appended to `a` starts with `a + "/"`. */
  lemma PrefixThenSlash(a: string, b: string)
    requires HasPrefix(b, "/")
    ensures HasPrefix(a + b, a + "/")
  {
    assert (a + b)[..|a| + 1] == a + b[..1];
  }

  /** The root followed by any segments is inside the root. */
  lemma RootPlusInside(k: seq<string>)
    ensures Absolute(RootSegs + k) == DownloadDir + Slashed(k)
    ensures InsideRoot(DownloadDir + Slashed(k))
  {
    RootSegsRender();
    SlashedAppend(RootSegs, k);
    if k != [] {
      SlashedStartsWithSlash(k);
      PrefixThenSlash(DownloadDir, Slashed(k));
    } else {
      assert DownloadDir + Slashed(k) == DownloadDir;
    }
  }

  /** No segment climbs to the parent. */
  predicate NoDotDot(segs: seq<string>)
  {
    forall i :: 0 <= i < |segs| ==> segs[i] != ".."
  }

  /** An empty request path (after the leading `/`) resolves to the root. */
  lemma EmptyRequestIsRoot(urlPath: string)
    requires TrimSlash(urlPath) == ""
    ensures ResolvePath(urlPath) == DownloadDir
  {
    CleanRoot();
  }

  /** Without `..`, the resolved path is the root followed by the kept segments. */
  lemma PlainRequestResolves(urlPath: string)
    requires TrimSlash(urlPath) != ""
    requires NoDotDot(Split(TrimSlash(urlPath)))
    ensures ResolvePath(urlPath) == DownloadDir + Slashed(Kept(Split(TrimSlash(urlPath))))
  {
    var t := TrimSlash(urlPath);
    ResolveSplits(urlPath);
    NormalizeWithoutDotDot(Split(t), RootSegs);
    RootPlusInside(Kept(Split(t)));
  }

  /** A request whose path has no `..` segment resolves inside the download
      root and is never forbidden. */
  lemma PlainRequestStaysInside(urlPath: string, fs: Filesystem)
    requires NoDotDot(Split(TrimSlash(urlPath)))
    ensures InsideRoot(ResolvePath(urlPath))
    ensures FileHandler(urlPath, fs) != Forbidden
  {
    var t := TrimSlash(urlPath);
    if t == "" {
      EmptyRequestIsRoot(urlPath);
    } else {
      PlainRequestResolves(urlPath);
      RootPlusInside(Kept(Split(t)));
    }
    InsideNotForbidden(urlPath, fs);
  }

  lemma InsideNotForbidden(urlPath: string, fs: Filesystem)
    requires InsideRoot(ResolvePath(urlPath))
    ensures FileHandler(urlPath, fs) != Forbidden
  {
    InsideHasPrefix(ResolvePath(urlPath));
  }

  /** A traversal attempt that climbs out of the root is forbidden, before any
      filesystem lookup. */
  lemma TraversalForbidden(fs: Filesystem)
    ensures ResolvePath("/../..") == "/"
    ensures FileHandler("/../..", fs) == Forbidden
  {
    assert TrimSlash("/../..") == "../..";
    ResolveSplits("/../..");
    assert "../.." == ".." + "/" + "..";
    SplitJoin("..", "..");
    SplitPlain("..");
    assert Split("../..") == ["..", ".."];
    assert Normalize(["..", ".."], RootSegs) == [] by {
      assert Normalize(["..", ".."], RootSegs) == Normalize([".."], ["tmp"]);
      assert Normalize([".."], ["tmp"]) == Normalize([], []);
    }
    assert !HasPrefix("/", DownloadDir);
  }

  /** Every `..` piece of `pieces` is also a piece of the finer split
      `finer`: the first piece carries over whenever it holds no backslash,
      and every later `..` piece survives among the later pieces. */
  predicate DotDotsCarry(pieces: seq<string>, finer: seq<string>)
  {
    |pieces| >= 1 && |finer| >= 1
    && ('\\' !in pieces[0] ==> finer[0] == pieces[0])
    && (forall i :: 1 <= i < |pieces| && pieces[i] == ".." ==> ".." in finer[1..])
  }

  /** A `..` piece of a split at `/` is also a `..` piece of the split at
      both slashes. */
  lemma {:induction false} SplitSlashesRefines(s: string)
    ensures DotDotsCarry(Split(s), SplitSlashes(s))
    decreases |s|
  {
    if |s| > 0 {
      SplitSlashesRefines(s[1..]);
      var p, b := Split(s[1..]), SplitSlashes(s[1..]);
      if s[0] == '/' {
        CarryAfterSlash(p, b);
      } else if s[0] == '\\' {
        CarryAfterBackslash(s[0], p, b);
      } else {
        CarryAfterOther(s[0], p, b);
      }
    }
  }

  /** A `/` starts a new piece in both splits. */
  lemma CarryAfterSlash(p: seq<string>, b: seq<string>)
    requires DotDotsCarry(p, b)
    ensures DotDotsCarry([""] + p, [""] + b)
  {
    var sp, sb := [""] + p, [""] + b;
    assert sb[1..] == b;
    forall i | 1 <= i < |sp| && sp[i] == ".." ensures ".." in sb[1..] {
      assert sp[i] == p[i - 1];
      if i == 1 {
        assert '\\' !in p[0];
        assert b[0] == "..";
      } else {
        assert ".." in b[1..];
      }
    }
  }

  /** A `\\` extends the first piece of the `/` split but starts a new piece
      of the finer one. */
  lemma CarryAfterBackslash(c: char, p: seq<string>, b: seq<string>)
    requires c == '\\' && DotDotsCarry(p, b)
    ensures DotDotsCarry([[c] + p[0]] + p[1..], [""] + b)
  {
    var sp, sb := [[c] + p[0]] + p[1..], [""] + b;
    assert sb[1..] == b;
    assert c in sp[0];
    forall i | 1 <= i < |sp| && sp[i] == ".." ensures ".." in sb[1..] {
      assert sp[i] == p[i];
      assert ".." in b[1..];
    }
  }

  /** Any other character extends the first piece of both splits. */
  lemma CarryAfterOther(c: char, p: seq<string>, b: seq<string>)
    requires c != '\\' && DotDotsCarry(p, b)
    ensures DotDotsCarry([[c] + p[0]] + p[1..], [[c] + b[0]] + b[1..])
  {
    var sp, sb := [[c] + p[0]] + p[1..], [[c] + b[0]] + b[1..];
    assert sb[1..] == b[1..];
    if '\\' !in sp[0] {
      assert forall k :: 0 <= k < |p[0]| ==> p[0][k] == sp[0][k + 1];
      assert '\\' !in p[0];
    }
    forall i | 1 <= i < |sp| && sp[i] == ".." ensures ".." in sb[1..] {
      assert sp[i] == p[i];
    }
  }

  /** A request path with no `..` element, in the sense of `http.ServeFile`,
      has no `..` segment once its leading `/` is stripped. */
  lemma NoDotDotElement(urlPath: string)
    requires !ContainsDotDot(urlPath)
    ensures NoDotDot(Split(TrimSlash(urlPath)))
  {
    var t := TrimSlash(urlPath);
    SplitSlashesRefines(urlPath);
    if HasPrefix(urlPath, "/") {
      assert urlPath[0] == '/' && urlPath[1..] == t;
      assert Split(urlPath) == [""] + Split(t);
      forall i | 0 <= i < |Split(t)| ensures Split(t)[i] != ".." {
        assert Split(urlPath)[i + 1] == Split(t)[i];
      }
    } else {
      assert '\\' !in "..";
    }
  }

  /** No file outside the download root is ever sent: a request that reaches
      `http.ServeFile` has no `..` element, so it resolves inside the root. */
  lemma NoFileEscapes(urlPath: string, fs: Filesystem)
    ensures FileHandler(urlPath, fs).ServeFile? ==> InsideRoot(FileHandler(urlPath, fs).path)
  {
    if FileHandler(urlPath, fs).ServeFile? {
      NoDotDotElement(urlPath);
      PlainRequestStaysInside(urlPath, fs);
    }
  }

  /** The forbidden decision depends on the request alone. */
  lemma ForbiddenBeforeFilesystem(urlPath: string, fs1: Filesystem, fs2: Filesystem)
    requires FileHandler(urlPath, fs1) == Forbidden
    ensures FileHandler(urlPath, fs2) == Forbidden
  {
  }

  /** Reading a listing back: the trailing `/` tells directories apart and
      stripping it gives back the entry name, so a listing determines the
      entries it was made from. */
  function ParseEntryName(s: string): DirEntry
  {
    if |s| > 0 && s[|s| - 1] == '/' then DirEntry(s[..|s| - 1], true) else DirEntry(s, false)
  }

  lemma ListingRoundTrip(es: seq<DirEntry>)
    requires forall i :: 0 <= i < |es| ==> '/' !in es[i].name
    ensures var names := EntryNames(es);
            |names| == |es| && forall i :: 0 <= i < |es| ==> ParseEntryName(names[i]) == es[i]
  {
    var names := EntryNames(es);
    forall i | 0 <= i < |es| ensures ParseEntryName(names[i]) == es[i] {
      var e := es[i];
      if e.isDir {
        assert (e.name + "/")[..|e.name|] == e.name;
      } else if |e.name| > 0 {
        assert e.name[|e.name| - 1] in e.name;
      }
    }
  }

  // ---------------------------------------------------------------------------
  // The string-prefix test admits siblings of the root.

  /** A sibling of the root whose name extends the root's last segment, such
      as `agents-state2`. */
  predicate SiblingName(n: string)
  {
    '/' !in n && HasPrefix(n, "agents-state") && n != "agents-state"
  }

  lemma SplitUp(n: string)
    requires '/' !in n
    ensures Split("../" + n) == ["..", n]
  {
    assert "../" + n == ".." + "/" + n;
    SplitJoin("..", n);
    SplitPlain("..");
    SplitPlain(n);
  }

  /** From the root's segments, `..` then `n` gives `/tmp/n`. */
  lemma ClimbAndDescend(n: string)
    requires n != "" && n != "." && n != ".."
    ensures Absolute(Normalize(["..", n], RootSegs)) == "/tmp/" + n
  {
    ClimbThenDescend(RootSegs[0], RootSegs[1], n);
    SlashedPair(RootSegs[0], n);
  }

  /** From a two-segment stack, `..` then `n` replaces the last segment by `n`. */
  lemma ClimbThenDescend(a: string, b: string, n: string)
    requires n != "" && n != "." && n != ".."
    ensures Normalize(["..", n], [a, b]) == [a, n]
  {
    assert ["..", n][1..] == [n];
    assert [a, b][..1] == [a];
    assert Normalize(["..", n], [a, b]) == Normalize([n], [a]);
    assert [n][1..] == [];
    assert Normalize([n], [a]) == Normalize([], [a] + [n]);
  }

  lemma SlashedPair(a: string, b: string)
    ensures Slashed([a, b]) == "/" + a + "/" + b
  {
    assert [a, b][..1] == [a];
    assert [a][..0] == [];
    assert Slashed([a]) == Slashed([]) + "/" + a;
    assert Slashed([a, b]) == Slashed([a]) + "/" + b;
  }

  /** `/../n` climbs to `/tmp` and comes back down into the sibling `n`. */
  lemma SiblingResolves(n: string)
    requires SiblingName(n)
    ensures ResolvePath("/../" + n) == "/tmp/" + n
  {
    var u := "/../" + n;
    assert TrimSlash(u) == "../" + n;
    ResolveSplits(u);
    SplitUp(n);
    assert |n| >= 12;
    ClimbAndDescend(n);
  }

  /** `/tmp/n` starts with the root string yet is neither the root nor below it. */
  lemma SiblingOutside(n: string)
    requires SiblingName(n)
    ensures HasPrefix("/tmp/" + n, DownloadDir)
    ensures !InsideRoot("/tmp/" + n)
  {
    var s := "/tmp/" + n;
    var k := |"agents-state"|;
    assert n[..k] == "agents-state";
    assert s == "/tmp/" + n[..k] + n[k..];
    assert DownloadDir == "/tmp/" + "agents-state";
    assert s[..|DownloadDir|] == DownloadDir;
    assert |n| > k;
    assert s[|DownloadDir|] == n[k];
    assert n[k] in n;
    assert (DownloadDir + "/")[|DownloadDir|] == '/';
  }

  /** As written: a request for `/../n`, with `n` a sibling of the root whose
      name extends the root's last segment, cleans to `/tmp/n`; that passes
      the string-prefix test though it lies outside the root, so a directory
      there is listed. */
  lemma PrefixCheckAdmitsSibling(n: string, fs: Filesystem, read: ReadDir)
    requires SiblingName(n)
    requires "/tmp/" + n in fs && fs["/tmp/" + n] == Directory(read)
    ensures ResolvePath("/../" + n) == "/tmp/" + n
    ensures HasPrefix(ResolvePath("/../" + n), DownloadDir)
    ensures !InsideRoot(ResolvePath("/../" + n))
    ensures FileHandler("/../" + n, fs) == ListDirectory(read)
  {
    SiblingResolves(n);
    SiblingOutside(n);
  }

  /** A file at such a sibling is not sent: `http.ServeFile` refuses the
      request path because of its `..` element. */
  lemma SiblingFileRefused(n: string, fs: Filesystem)
    requires SiblingName(n)
    requires "/tmp/" + n in fs && fs["/tmp/" + n] == NotDirectory
    ensures FileHandler("/../" + n, fs) == InvalidPath
  {
    SiblingResolves(n);
    SiblingOutside(n);
    SiblingRequestHasDotDot(n);
  }

  /** The request path `/../n` has a `..` element. */
  lemma SiblingRequestHasDotDot(n: string)
    requires SiblingName(n)
    ensures ContainsDotDot("/../" + n)
  {
    var u := "/../" + n;
    SplitSlashesRefines(u);
    assert u[0] == '/' && u[1..] == "../" + n;
    SplitUp(n);
    assert Split(u) == [""] + ["..", n];
    assert Split(u)[1] == "..";
  }

  /** The name `agents-state2` is such a sibling. */
  lemma AgentsState2IsSibling()
    ensures SiblingName("agents-state2")
  {
    var n := "agents-state2";
    assert n == "agents-state" + "2";
    assert n[..12] == "agents-state";
    forall i | 0 <= i < |n| ensures n[i] != '/' { }
  }

  /** Corrected: the cleaned path must be the root or lie below `root + "/"`. */
  function ContainedFileHandler(urlPath: string, fs: Filesystem): (r: Response)
    ensures r.ServeFile? ==> InsideRoot(r.path)
    ensures r != Forbidden <==> InsideRoot(ResolvePath(urlPath))
  {
    var safe := ResolvePath(urlPath);
    if !InsideRoot(safe) then Forbidden else Admitted(urlPath, safe, fs)
  }

  /** The corrected handler agrees with the original on every request that
      resolves inside the root, and forbids every request the original
      forbids. */
  lemma ContainedHandlerIsSafe(urlPath: string, fs: Filesystem)
    ensures InsideRoot(ResolvePath(urlPath)) ==> ContainedFileHandler(urlPath, fs) == FileHandler(urlPath, fs)
    ensures FileHandler(urlPath, fs) == Forbidden ==> ContainedFileHandler(urlPath, fs) == Forbidden
  {
    var safe := ResolvePath(urlPath);
    if InsideRoot(safe) {
      InsideHasPrefix(safe);
    }
  }

  /** The corrected handler forbids every request for such a sibling. */
  lemma ContainedHandlerRejectsSibling(n: string, fs: Filesystem)
    requires SiblingName(n)
    ensures ContainedFileHandler("/../" + n, fs) == Forbidden
  {
    SiblingResolves(n);
    SiblingOutside(n);
  }
}

=== FILE: wrappers.dfy ===
/** Small shared datatypes. */
module Wrappers {

  /** A value that may be absent: a failed parse, a missing map entry. */
  datatype Option<+T> = None | Some(value: T)
}
